=== FILE: README.md ===
# Fournisseur CRUD core, modelled in Dafny

This project models the supplier ("fournisseur") management core of a Spring
REST service. It covers four parts:

- the `Fournisseur` JPA entity: seven business fields, bean-validation rules, and the `@PrePersist`/`@PreUpdate` timestamp hooks;
- the Spring Data repository: derived queries, JPQL queries, counts and existence probes;
- the service: create, update and delete with the email/ICE uniqueness checks;
- the REST controller under `/api/v1/fournisseurs`: listing precedence, validation before the service, status codes, and the exception handlers.

The database table is an immutable value `Store(rows: map<int, Fournisseur>, nextId: int)`.
`nextId` is the next value of the IDENTITY column, starting at 1.
Every service and controller call is a pure function from the table to a new table plus a result: `Outcome` for the service, `Exchange` for the controller.
Thrown exceptions become `Failure` values of `Exceptions.Error`.

Modules (one file each):

| file | module | models |
|---|---|---|
| `results.dfy` | `Results` | `Option`, `Result` |
| `strings.dfy` | `Strings` | `trim()`/blank, ASCII lower-casing, substring, suffix, lexicographic order, `equalsIgnoreCase` against a lower-case ASCII literal |
| `fournisseur.dfy` | `FournisseurEntity` | entity, constructor, lifecycle hooks, field validation |
| `ordering.dfy` | `Ordering` | the two `ORDER BY` orders and a sort producing them |
| `exceptions.dfy` | `Exceptions` | not-found, already-exists and internal failures with their messages |
| `repository.dfy` | `FournisseurRepository` | table invariant and all repository queries |
| `service.dfy` | `FournisseurService` | service transitions and their invariants |
| `controller.dfy` | `FournisseurController` | endpoints, envelope, status codes |

Two invariants carry the proofs:

- `Wf`: every key is below `nextId` and every row is persisted under its own key, with `createdAt <= updatedAt`.
- `Unique`: no two rows share an email or an ICE.

The clock is a parameter. Where the proofs need it not to run backwards, that is a hypothesis, never an assumption of the model.

In three places the model follows the code where a reader might expect otherwise:

- `onCreate` reads `LocalDateTime.now()` twice. `createdAt == updatedAt` on a fresh row is therefore not guaranteed; only `createdAt <= updatedAt` is, for a monotone clock. The creation hook takes two readings `t1`, `t2`.
- `@PreUpdate` fires only when the flush finds the entity changed. An update that sends back the stored values leaves `updatedAt` as it was (`UpdateWithSameDetailsIsNoOp`).
- `findAll` has no `ORDER BY`, so SQL promises no order. The model lists rows in ascending key order and states only membership and length.

## Model

| member | source | states |
|---|---|---|
| FournisseurEntity.New | src/main/java/com/youcode/entities/Fournisseur.java:75-84 | the seven-argument constructor sets exactly the given business fields and leaves id and both timestamps unset, so the entity is not persisted under any key |
| FournisseurEntity.OnCreate | src/main/java/com/youcode/entities/Fournisseur.java:60-64 | `@PrePersist` sets both timestamps from two clock readings and keeps id and business fields |
| FournisseurEntity.OnCreateOrdersTimestamps | src/main/java/com/youcode/entities/Fournisseur.java:54-64 | with a clock that does not run backwards, a freshly persisted row has both timestamps and `createdAt <= updatedAt` |
| FournisseurEntity.OnUpdate | src/main/java/com/youcode/entities/Fournisseur.java:66-69 | `@PreUpdate` moves only `updatedAt`; `createdAt` (not updatable), id and fields are kept |
| FournisseurEntity.OnUpdateKeepsPersisted | src/main/java/com/youcode/entities/Fournisseur.java:54-69 | a persisted row stays persisted, timestamps still ordered, under an update reading not earlier than its last one |
| FournisseurEntity.AllFieldsListed | src/main/java/com/youcode/entities/Fournisseur.java:19-52 | the seven validated fields are exactly the listed ones |
| FournisseurEntity.MatchIce | src/main/java/com/youcode/entities/Fournisseur.java:50 | a scan accepts a string exactly when it matches `^[0-9]{15}$` |
| FournisseurEntity.MatchTelephone | src/main/java/com/youcode/entities/Fournisseur.java:40 | a scan accepts a string exactly when it matches `^\+?[0-9]{10,15}$` |
| FournisseurEntity.SocieteRule | src/main/java/com/youcode/entities/Fournisseur.java:19-22 | the company name is valid iff present, not blank after trim, and 2 to 100 characters long |
| FournisseurEntity.TextRules | src/main/java/com/youcode/entities/Fournisseur.java:24-47 | address, contact and city are valid iff present, not blank, and within 255, 100 and 100 characters |
| FournisseurEntity.EmailRule | src/main/java/com/youcode/entities/Fournisseur.java:34-37 | the email is valid iff present, not blank, and accepted by the `@Email` syntax check |
| FournisseurEntity.IceRule | src/main/java/com/youcode/entities/Fournisseur.java:49-52 | the ICE is valid iff present and exactly 15 ASCII digits; `@NotBlank` adds nothing to the pattern |
| FournisseurEntity.TelephoneRule | src/main/java/com/youcode/entities/Fournisseur.java:39-42 | the telephone is valid iff present and an optional `+` followed by 10 to 15 digits |
| FournisseurEntity.Validate | src/main/java/com/youcode/controllers/FournisseurController.java:95-99 | the binding-result error map has a key for a field iff that field breaks a constraint, and its value is the message of one broken constraint |
| FournisseurEntity.FieldNamesDistinct | src/main/java/com/youcode/controllers/FournisseurController.java:95-99 | the error map's keys, the field names, are distinct for distinct fields, so keying it by field loses nothing |
| FournisseurEntity.NullIsInvalid | src/main/java/com/youcode/entities/Fournisseur.java:19-52 | a null value breaks every field's `@NotBlank` |
| FournisseurEntity.PresentWhenValid | src/main/java/com/youcode/entities/Fournisseur.java:19-52 | a field without an error is not null, because every field is `@NotBlank` |
| FournisseurEntity.ValidBodyIsComplete | src/main/java/com/youcode/entities/Fournisseur.java:19-52 | a body with an empty error map has all seven fields present |
| FournisseurEntity.ToDetails | src/main/java/com/youcode/entities/Fournisseur.java:19-52 | the business fields of a complete body are the body's values, field by field |
| Strings.TrimStart | src/main/java/com/youcode/controllers/FournisseurController.java:42 | `trim()` drops a prefix of characters at or below U+0020 and stops at the first other character |
| Strings.TrimEnd | src/main/java/com/youcode/controllers/FournisseurController.java:42 | `trim()` drops such a suffix and stops at the last other character |
| Strings.Trim | src/main/java/com/youcode/controllers/FournisseurController.java:42 | `trim()` leaves a slice of the string with only characters at or below U+0020 outside it, and the slice, when non-empty, starts and ends above U+0020 |
| Strings.TrimIdempotent | src/main/java/com/youcode/controllers/FournisseurController.java:42 | trimming an already trimmed string changes nothing |
| Strings.IsBlank | src/main/java/com/youcode/controllers/FournisseurController.java:42-45 | `s.trim().isEmpty()` holds iff every character of `s` is at or below U+0020 |
| Strings.Lower | src/main/java/com/youcode/repositories/FournisseurRepository.java:77-80 | `LOWER` keeps the length and lower-cases each ASCII letter in place; the case folding both case-insensitive queries use |
| Strings.Contains | src/main/java/com/youcode/repositories/FournisseurRepository.java:77-80 | the executable substring test agrees with "occurs at some position" |
| Strings.EndsWithIffSplit | src/main/java/com/youcode/repositories/FournisseurRepository.java:25 | ending with `d` is the same as being some prefix followed by `d` |
| Strings.StrLeTotal | src/main/java/com/youcode/repositories/FournisseurRepository.java:60-65 | the string order of `ORDER BY` is total |
| Strings.StrLeAntisymmetric | src/main/java/com/youcode/repositories/FournisseurRepository.java:60-65 | the string order is antisymmetric |
| Strings.StrLeTransitive | src/main/java/com/youcode/repositories/FournisseurRepository.java:60-65 | the string order is transitive |
| Strings.EqualsIgnoreCase | src/main/java/com/youcode/controllers/FournisseurController.java:48-51 | `"nom".equalsIgnoreCase(x)` (and the other literals) accepts only strings of the literal's length, accepts every ASCII casing of the literal, and accepts an ASCII string exactly when it lower-cases to the literal |
| Strings.EqualsIgnoreCaseBeyondAscii | src/main/java/com/youcode/controllers/FournisseurController.java:51 | outside ASCII Java's case-insensitive comparison accepts more than lower-casing: "v\U{0130}lle" equals "ville" ignoring case but does not lower-case to it |
| Ordering.LeTotal | src/main/java/com/youcode/repositories/FournisseurRepository.java:60-65 | both sort orders are total |
| Ordering.LeTransitive | src/main/java/com/youcode/repositories/FournisseurRepository.java:60-65 | both sort orders, including city-then-company, are transitive |
| Ordering.Insert | src/main/java/com/youcode/repositories/FournisseurRepository.java:60-65 | inserting into a sorted list keeps it sorted and adds exactly one occurrence of the element |
| Ordering.Sort | src/main/java/com/youcode/repositories/FournisseurRepository.java:60-65 | the result is sorted and a permutation of the input |
| FournisseurRepository.Scan | src/main/java/com/youcode/repositories/FournisseurRepository.java:13 | a table scan over a key range yields exactly the rows stored under those keys |
| FournisseurRepository.Select | src/main/java/com/youcode/repositories/FournisseurRepository.java:20-81 | a WHERE filter keeps exactly the matching elements and never adds any |
| FournisseurRepository.SelectScanCount | src/main/java/com/youcode/repositories/FournisseurRepository.java:45 | the filtered scan has one row per matching key: the count SQL's COUNT reports |
| FournisseurRepository.FindAll | src/main/java/com/youcode/services/impl/FournisseurServiceImpl.java:86-88 | `findAll` lists every stored row and nothing else, one entry per row |
| FournisseurRepository.FindWhere | src/main/java/com/youcode/repositories/FournisseurRepository.java:20-81 | a query lists exactly the stored rows satisfying its criterion |
| FournisseurRepository.FindWhereCount | src/main/java/com/youcode/repositories/FournisseurRepository.java:45 | a query lists as many rows as there are matching keys |
| FournisseurRepository.FindById | src/main/java/com/youcode/services/impl/FournisseurServiceImpl.java:80-82 | `findById` is present iff the key is stored, and then it is that row |
| FournisseurRepository.FindByVille | src/main/java/com/youcode/repositories/FournisseurRepository.java:30 | exactly the rows whose city equals the argument |
| FournisseurRepository.Count | src/main/java/com/youcode/services/impl/FournisseurServiceImpl.java:134-136 | `count()` equals the number of rows `findAll` lists |
| FournisseurRepository.CountByVille | src/main/java/com/youcode/repositories/FournisseurRepository.java:45 | `countByVille(v)` equals the number of rows `findByVille(v)` lists |
| FournisseurRepository.FindByEmailEndingWith | src/main/java/com/youcode/repositories/FournisseurRepository.java:25 | exactly the rows whose email is some prefix followed by the given domain |
| FournisseurRepository.FindBySocieteContainingIgnoreCase | src/main/java/com/youcode/repositories/FournisseurRepository.java:40 | exactly the rows whose case-folded company contains the case-folded argument |
| FournisseurRepository.SearchFournisseurs | src/main/java/com/youcode/repositories/FournisseurRepository.java:77-81 | exactly the rows where the case-folded keyword occurs in the case-folded company, city or contact, one field sufficing |
| FournisseurRepository.FindWhereNonEmpty | src/main/java/com/youcode/repositories/FournisseurRepository.java:50-55 | a query's list is non-empty iff some stored row matches |
| FournisseurRepository.ExistsByEmail | src/main/java/com/youcode/repositories/FournisseurRepository.java:50 | true iff some stored row has exactly this email |
| FournisseurRepository.ExistsByIce | src/main/java/com/youcode/repositories/FournisseurRepository.java:55 | true iff some stored row has exactly this ICE |
| FournisseurRepository.FindUnique | src/main/java/com/youcode/repositories/FournisseurRepository.java:20 | a single-result query is empty iff nothing matches, returns a matching stored row, and fails iff two distinct rows match |
| FournisseurRepository.FindWhereSeveral | src/main/java/com/youcode/repositories/FournisseurRepository.java:20 | at least two rows are listed iff two distinct keys match |
| FournisseurRepository.FindBySociete | src/main/java/com/youcode/repositories/FournisseurRepository.java:20 | empty iff no row has the company name; a found row is stored and has that name; the query fails iff two distinct rows share the name |
| FournisseurRepository.FindBySocieteFailsOnSharedName | src/main/java/com/youcode/repositories/FournisseurRepository.java:20 | `findBySociete` fails when two suppliers share the company name, which is not a unique column |
| FournisseurRepository.FindByIce | src/main/java/com/youcode/repositories/FournisseurRepository.java:35 | empty iff no row has the ICE; a found row is stored and has that ICE; the query fails iff two distinct rows share it |
| FournisseurRepository.FindByIceUnderUniqueness | src/main/java/com/youcode/repositories/FournisseurRepository.java:35 | with unique ICEs `findByIce` never fails, finds a row iff `existsByIce`, and the row has that ICE |
| FournisseurRepository.FindAllByOrderBySocieteAsc | src/main/java/com/youcode/repositories/FournisseurRepository.java:60 | company-ascending and a permutation of `findAll` |
| FournisseurRepository.FindAllByOrderByVilleAscSocieteAsc | src/main/java/com/youcode/repositories/FournisseurRepository.java:65 | city then company ascending, and a permutation of `findAll` |
| FournisseurRepository.FindFournisseursByVilleOrderedBySociete | src/main/java/com/youcode/repositories/FournisseurRepository.java:71-72 | company-ascending and a permutation of that city's rows |
| FournisseurRepository.SortedListingsAreStore | src/main/java/com/youcode/repositories/FournisseurRepository.java:60-65 | each sorted listing holds exactly the stored rows and is as long as the table |
| FournisseurRepository.Persist | src/main/java/com/youcode/services/impl/FournisseurServiceImpl.java:38 | `save` of a new entity stores it under the next IDENTITY value and advances the counter |
| FournisseurRepository.Merge | src/main/java/com/youcode/services/impl/FournisseurServiceImpl.java:67 | `save` of a keyed entity replaces that key's row and leaves the counter |
| FournisseurRepository.DeleteById | src/main/java/com/youcode/services/impl/FournisseurServiceImpl.java:75 | `deleteById` removes exactly that key, keeps every other row, and keeps the counter |
| Exceptions.DecimalString | src/main/java/com/youcode/services/impl/FournisseurServiceImpl.java:44 | the `"..." + id` rendering is canonical decimal: a minus sign only for a negative id, then ASCII digits with no leading zero except for 0 itself, and it reads back as the id |
| Exceptions.Message | src/main/java/com/youcode/services/impl/FournisseurServiceImpl.java:28-75 | the not-found message is the fixed prefix followed by the id in decimal, so the id can be read back from it |
| Exceptions.MessagesIdentifyError | src/main/java/com/youcode/services/impl/FournisseurServiceImpl.java:28-75 | two not-found or already-exists messages are equal iff the failures are: the id, or the column, is named in the text |
| FournisseurService.CreateFournisseur | src/main/java/com/youcode/services/impl/FournisseurServiceImpl.java:27-39 | a refused create writes nothing; a successful one stores the given fields under the next key and advances the counter by one |
| FournisseurService.CreateRejectsTakenEmail | src/main/java/com/youcode/services/impl/FournisseurServiceImpl.java:29-31 | a stored email is refused first, whatever the ICE, and nothing is written |
| FournisseurService.CreateRejectsTakenIce | src/main/java/com/youcode/services/impl/FournisseurServiceImpl.java:33-36 | with a new email, a stored ICE is refused and nothing is written |
| FournisseurService.AddFreshRowKeepsInvariant | src/main/java/com/youcode/entities/Fournisseur.java:36-51 | adding a persisted row with new email and ICE under the counter's key keeps both invariants |
| FournisseurService.CreateAddsOneRow | src/main/java/com/youcode/services/impl/FournisseurServiceImpl.java:27-39 | with email and ICE both new, create succeeds, adds exactly one row under a never-used key, keeps the others, and keeps the invariants |
| FournisseurService.CreatePreservesInvariant | src/main/java/com/youcode/services/impl/FournisseurServiceImpl.java:27-39 | every create keeps `Wf` and uniqueness |
| FournisseurService.UpdateFournisseur | src/main/java/com/youcode/services/impl/FournisseurServiceImpl.java:42-68 | an absent id is not-found; a refusal writes nothing; success replaces only that row with the new fields, same id and creation time, and a change of any field stamps `updatedAt` with the update's clock reading (`@PreUpdate`, Fournisseur.java:66-69) |
| FournisseurService.UpdateKeepingOwnKeysSucceeds | src/main/java/com/youcode/services/impl/FournisseurServiceImpl.java:46-56 | keeping one's own email and ICE is never a conflict, although both probes answer true |
| FournisseurService.UpdateConflictIffHeldByOther | src/main/java/com/youcode/services/impl/FournisseurServiceImpl.java:46-56 | under uniqueness an update is refused on the email iff another row holds it, then on the ICE iff another row holds it, and succeeds otherwise |
| FournisseurService.HeldByOtherIffProbe | src/main/java/com/youcode/services/impl/FournisseurServiceImpl.java:47-54 | under uniqueness "changed and the probe finds it" is the same as "another row holds it" |
| FournisseurService.UpdatePreservesInvariant | src/main/java/com/youcode/services/impl/FournisseurServiceImpl.java:42-68 | update keeps both invariants and the key set and leaves other rows alone; on success `updatedAt` is the new reading when a field changed and the old stamp otherwise, never earlier than before |
| FournisseurService.UpdateWithSameDetailsIsNoOp | src/main/java/com/youcode/entities/Fournisseur.java:66-69 | sending back the stored values succeeds and changes nothing, not even the update time |
| FournisseurService.UpdateIsIdempotent | src/main/java/com/youcode/services/impl/FournisseurServiceImpl.java:42-68 | repeating an update at any later time leaves the table as the first one did |
| FournisseurService.DeleteFournisseur | src/main/java/com/youcode/services/impl/FournisseurServiceImpl.java:71-76 | delete fails with not-found iff the id is absent and then writes nothing; otherwise exactly that key goes |
| FournisseurService.GetFournisseurById | src/main/java/com/youcode/services/impl/FournisseurServiceImpl.java:80-82 | an empty answer, not an error, exactly when the id is absent; otherwise the stored row under that id |
| FournisseurService.DeleteThenGetIsEmpty | src/main/java/com/youcode/services/impl/FournisseurServiceImpl.java:71-82 | after a delete the id is not found, one row fewer remains on success, and the invariants hold |
| FournisseurService.ApplyPreservesInvariant | src/main/java/com/youcode/services/impl/FournisseurServiceImpl.java:27-76 | each mutating call keeps the invariants, never lowers the counter, and introduces at most the counter's key |
| FournisseurService.RunPreservesInvariant | src/main/java/com/youcode/services/impl/FournisseurServiceImpl.java:27-76 | any sequence of creates, updates and deletes keeps email and ICE unique and never reuses a key |
| FournisseurService.EmptyIsValid | src/main/java/com/youcode/entities/Fournisseur.java:15-17 | an empty table with the IDENTITY counter at 1 satisfies both invariants |
| FournisseurService.ReachableIsValid | src/main/java/com/youcode/services/impl/FournisseurServiceImpl.java:27-76 | every table reached from an empty database (counter at 1) by a timely sequence of creates, updates and deletes satisfies both invariants |
| FournisseurController.HandleError | src/main/java/com/youcode/controllers/FournisseurController.java:203-231 | every failure answer has `success = false` and no data; 404 iff not-found, 409 iff already-exists, otherwise 500 with the prefixed message |
| FournisseurController.Accepted | src/main/java/com/youcode/controllers/FournisseurController.java:109 | a body that passed validation yields every one of its seven values |
| FournisseurController.ChooseListing | src/main/java/com/youcode/controllers/FournisseurController.java:42-56 | a non-blank search is run first; otherwise a non-blank city; otherwise "nom"/"societe" gives the company order and "ville" the city-then-company order, ignoring case; otherwise the plain list |
| FournisseurController.SortKeysExclusive | src/main/java/com/youcode/controllers/FournisseurController.java:48-53 | no sort key asks for both orders, so the order of the two case-insensitive tests does not matter |
| FournisseurController.GetAllFournisseurs | src/main/java/com/youcode/controllers/FournisseurController.java:59-65 | a listing is always answered 200 with a list and no error map |
| FournisseurController.GetAllSearchWins | src/main/java/com/youcode/controllers/FournisseurController.java:42-44 | a non-blank search overrides city and sort and lists the keyword's matches |
| FournisseurController.GetAllFiltersByVille | src/main/java/com/youcode/controllers/FournisseurController.java:45-47 | without a search, a non-blank city overrides the sort and lists that city's rows |
| FournisseurController.GetAllListsEveryRow | src/main/java/com/youcode/controllers/FournisseurController.java:48-56 | without search or city, every stored row is listed once |
| FournisseurController.GetAllSortsWhenAsked | src/main/java/com/youcode/controllers/FournisseurController.java:48-56 | sort key "nom"/"societe" gives company order, "ville" city-then-company order, ignoring case; any other or no sort key gives the plain `findAll` list |
| FournisseurController.SortBySocieteIgnoresAsciiCase | src/main/java/com/youcode/controllers/FournisseurController.java:48-50 | "NOM", "Societe" and every other ASCII casing select the company order |
| FournisseurController.SortByVilleIgnoresAsciiCase | src/main/java/com/youcode/controllers/FournisseurController.java:51-53 | every ASCII casing of "ville" selects the city-then-company order |
| FournisseurController.GetFournisseurById | src/main/java/com/youcode/controllers/FournisseurController.java:72-84 | 200 with the stored row iff the id is stored, otherwise the 404 not-found answer |
| FournisseurController.CreateFournisseur | src/main/java/com/youcode/controllers/FournisseurController.java:90-118 | 400 iff the body has field errors, and then nothing is written and the error map is returned |
| FournisseurController.CreateOutcomes | src/main/java/com/youcode/controllers/FournisseurController.java:109-117 | a valid body is answered 201 with the stored row iff email and ICE are both new, 409 otherwise with nothing written; the invariants hold |
| FournisseurController.PostingTwiceConflicts | src/main/java/com/youcode/services/impl/FournisseurServiceImpl.java:27-39 | posting the same body again is 409 and writes nothing: on the email after a 201, the same refusal after a refusal |
| FournisseurController.UpdateFournisseur | src/main/java/com/youcode/controllers/FournisseurController.java:124-153 | 400 iff the body has field errors, and then nothing is written and the error map is returned |
| FournisseurController.InvalidBodyIsRejectedFirst | src/main/java/com/youcode/controllers/FournisseurController.java:95-107 | an invalid body gets the same 400 on POST and PUT, before any id lookup; the error keys are exactly the invalid fields; nothing is written |
| FournisseurController.UpdateOutcomes | src/main/java/com/youcode/controllers/FournisseurController.java:144-152 | a valid body on PUT: 404 iff the id is absent, 409 iff another row holds the new email or ICE, 200 with the stored row otherwise; only a 200 writes; the invariants hold |
| FournisseurController.DeleteFournisseur | src/main/java/com/youcode/controllers/FournisseurController.java:159-170 | 200 iff the id is stored, otherwise the 404 answer with nothing written |
| FournisseurController.DeleteThenGetIsNotFound | src/main/java/com/youcode/controllers/FournisseurController.java:72-84 | after a DELETE the same id answers 404 on GET and on a second DELETE |
| FournisseurController.CountFournisseurs | src/main/java/com/youcode/controllers/FournisseurController.java:176-198 | a count is answered 200 with a number, under the city message iff the city parameter is non-blank |
| FournisseurController.CountAgreesWithListing | src/main/java/com/youcode/controllers/FournisseurController.java:183-189 | the count equals the length of the listing with the same city parameter |
| FournisseurController.PostIsSound | src/main/java/com/youcode/controllers/FournisseurController.java:90-118 | every POST answer has `success` iff status < 400, a status the controller sends, no write on failure, and the invariants afterwards |
| FournisseurController.PutIsSound | src/main/java/com/youcode/controllers/FournisseurController.java:124-153 | the same for every PUT, given a clock not behind the row's last update |
| FournisseurController.HandleKeepsContracts | src/main/java/com/youcode/controllers/FournisseurController.java:34-231 | every answer's success flag agrees with status < 400, statuses are among 200/201/400/404/409/500, reads and failures write nothing, and the invariants survive every request |

## Left out

- `@Email` syntax: Hibernate's email regular expression is not modelled. It is the parameter `emailOk`; the model fixes only that an empty value passes it, as in Hibernate.
- Column lengths and database errors: the `@Column(length = 100)` limit on the email is enforced only by the database, because `@Email` does not bound it, and any other storage failure is not modelled either. The other column lengths cannot be exceeded after validation (the telephone pattern allows at most 16 characters). Such a failure would reach the catch-all handler, which answers 500 as `HandleError` does for `Internal`.
- String lengths count Dafny characters (Unicode scalar values), not UTF-16 code units. A string with characters outside the Basic Multilingual Plane is measured differently by `@Size`.
- Collation: MySQL's default accent- and case-insensitive collation, which governs `=`, `ORDER BY` and `LIKE`, is not modelled. Equality is exact and order is code-point lexicographic. So `findByVille`, `findByEmailEndingWith`, `findBySocieteContainingIgnoreCase` and `searchFournisseurs` match exactly or by ASCII case folding only: "@GMAIL.COM" does not find "a@gmail.com" through `findByEmailEndingWith`, and "ecole" does not find "École" through the two search queries, though MySQL finds both.
- Case folding: `LOWER`, and the `UPPER` that Spring generates for `IgnoreCase`, fold ASCII letters only; under that folding lower-casing and upper-casing both sides give the same answer.
- `LIKE` patterns: wildcard characters (`%`, `_`) inside a search keyword are matched literally rather than as wildcards.
- `Validate`: when a field breaks both of its constraints (for example a blank company name of one space, which is also too short), Java's `HashMap.put` keeps whichever error comes last in an order Hibernate does not specify. The model states only that the message is one of the broken constraints' messages.
- `FindAll` lists rows in key order; SQL gives no order for `findAll`, `findByVille` or `searchFournisseurs`, so the contracts state membership and counts only.
- Sorting among equal keys: rows with the same company (or city and company) may appear in any relative order; the model fixes one.
- A request body carrying an `id` or timestamps: the body has only the seven business fields. A client-supplied `id` on POST would make `save` a merge; that path is not modelled.
- `Long` arithmetic: ids and counts are unbounded; IDENTITY overflow past 2^63 - 1 is not modelled.
- Concurrency and transactions: two requests racing between `existsByEmail` and `save` are not modelled; each call is atomic here.
- The clock: `LocalDateTime.now()` is replaced by readings passed as parameters.
- JSON binding, HTTP routing, the `ApiResponse` class and its serialization: the envelope is the `Response` datatype. A path id that does not parse as a `Long`, or a body that is not valid JSON, raises before the endpoint runs; the controller's catch-all `@ExceptionHandler(Exception.class)` answers it 500 with the prefixed message. Binding is not modelled, so such a request has no `Request` value; its answer is `HandleError(Internal(m))` for the binder's message `m`.
- `FournisseurService.findBySociete`, `findByIce`, `searchBySociete`, `existsByEmail`, `existsByIce`, `getAllFournisseurs…`, `countFournisseurs`, `countByVille`: each passes its argument to the repository unchanged, so the repository functions stand for them.
- `FournisseurService.java` is an interface only. `ApplicationDemo.java`, `PersistenceConfig.java` and the hello controller and service are wiring and demo code. None of these is part of this model.

=== FILE: controller.dfy ===
/** The REST controller under `/api/v1/fournisseurs`: each endpoint as a
    function from the table and the request to the table afterwards and the
    `ApiResponse` envelope with its HTTP status, the body validation that runs
    before the service, and the exception handlers that turn service failures
    into 404, 409 and 500 answers. */
module FournisseurController {
  import opened Results
  import opened Strings
  import opened FournisseurEntity
  import opened Exceptions
  import opened Ordering
  import opened FournisseurRepository
  import FournisseurService

  const OK: int := 200
  const CREATED: int := 201
  const BAD_REQUEST: int := 400
  const NOT_FOUND: int := 404
  const CONFLICT: int := 409
  const INTERNAL_SERVER_ERROR: int := 500

  /** The `data` member of the envelope. */
  datatype Payload =
    | NoData
    | One(fournisseur: Fournisseur)
    | Many(list: seq<Fournisseur>)
    | Number(count: nat)

  /** `ApiResponse` (success flag, message, data, field errors) with the status it is sent under. */
  datatype Response = Response(
    status: int,
    success: bool,
    message: string,
    data: Payload,
    errors: Option<map<Field, string>>)

  /** The table after a request, and the answer. */
  datatype Exchange = Exchange(store: Store, response: Response)

  /** A query parameter that is present and not blank after `trim()`. */
  predicate Effective(p: Option<string>) {
    p.Some? && !IsBlank(p.value)
  }

  // ----- Exception handlers -----

  /** The three `@ExceptionHandler` methods: 404 for a missing id, 409 for a
      duplicate, 500 with a prefixed message for anything else. */
  function HandleError(e: Error): (r: Response)
    ensures !r.success && r.data == NoData && r.errors == None
    ensures r.status >= 400
    ensures r.status == NOT_FOUND <==> e.NotFound?
    ensures r.status == CONFLICT <==> e.AlreadyExists?
    ensures r.status == INTERNAL_SERVER_ERROR <==> e.Internal?
    ensures !e.Internal? ==> r.message == Message(e)
    ensures e.Internal? ==> r.message == "Une erreur interne s'est produite: " + Message(e)
  {
    match e
    case NotFound(_) => Response(NOT_FOUND, false, Message(e), NoData, None)
    case AlreadyExists(_) => Response(CONFLICT, false, Message(e), NoData, None)
    case Internal(_) => Response(INTERNAL_SERVER_ERROR, false, "Une erreur interne s'est produite: " + Message(e), NoData, None)
  }

  /** The 400 answer to a body with field errors. */
  function ValidationFailure(errors: map<Field, string>): Response {
    Response(BAD_REQUEST, false, "Erreurs de validation", NoData, Some(errors))
  }

  /** The business fields of a body that passed validation, every field present. */
  function Accepted(b: Body, emailOk: string -> bool): (d: Details)
    requires Validate(b, emailOk) == map[]
    ensures forall f :: Value(b, f) == Some(DetailValue(d, f))
  {
    ValidBodyIsComplete(b, emailOk);
    ToDetails(b)
  }

  // ----- GET /api/v1/fournisseurs -----

  /** Which query a listing request runs. */
  datatype Listing =
    | Search(keyword: string)
    | InVille(ville: string)
    | SortedBySociete
    | SortedByVilleThenSociete
    | Plain

  /** The sort key asks for company order: "nom" or "societe", ignoring case. */
  predicate AsksBySociete(sortBy: Option<string>) {
    sortBy.Some? && (EqualsIgnoreCase(sortBy.value, "nom") || EqualsIgnoreCase(sortBy.value, "societe"))
  }

  /** The sort key asks for city-then-company order: "ville", ignoring case. */
  predicate AsksByVille(sortBy: Option<string>) {
    sortBy.Some? && EqualsIgnoreCase(sortBy.value, "ville")
  }

  /** No sort key asks for both orders: "ville" has five characters, "nom"
      three and "societe" seven, and only strings of a literal's length match
      it. So the order in which the controller tests them does not matter. */
  lemma SortKeysExclusive(sortBy: Option<string>)
    ensures !(AsksBySociete(sortBy) && AsksByVille(sortBy))
  {
  }

  /** The precedence of the listing parameters: a non-blank search wins, then
      a non-blank city, then a sort key compared ignoring case. */
  function ChooseListing(sortBy: Option<string>, ville: Option<string>, search: Option<string>): (l: Listing)
    ensures Effective(search) ==> l == Search(search.value)
    ensures !Effective(search) && Effective(ville) ==> l == InVille(ville.value)
    ensures !Effective(search) && !Effective(ville) ==>
      && (l == SortedBySociete <==> AsksBySociete(sortBy))
      && (l == SortedByVilleThenSociete <==> AsksByVille(sortBy))
      && (l == Plain <==> !AsksBySociete(sortBy) && !AsksByVille(sortBy))
  {
    if Effective(search) then Search(search.value)
    else if Effective(ville) then InVille(ville.value)
    else if AsksBySociete(sortBy) then SortedBySociete
    else if AsksByVille(sortBy) then SortedByVilleThenSociete
    else Plain
  }

  function RunListing(s: Store, l: Listing): seq<Fournisseur> {
    match l
    case Search(k) => SearchFournisseurs(s, k)
    case InVille(v) => FindByVille(s, v)
    case SortedBySociete => FindAllByOrderBySocieteAsc(s)
    case SortedByVilleThenSociete => FindAllByOrderByVilleAscSocieteAsc(s)
    case Plain => FindAll(s)
  }

  function GetAllFournisseurs(s: Store, sortBy: Option<string>, ville: Option<string>, search: Option<string>): (r: Response)
    ensures r.status == OK && r.success && r.data.Many? && r.errors == None
  {
    Response(OK, true, "Fournisseurs récupérés avec succès", Many(RunListing(s, ChooseListing(sortBy, ville, search))), None)
  }

  /** A non-blank search wins over every other parameter: the rows where the
      keyword occurs in company, city or contact. */
  lemma GetAllSearchWins(s: Store, sortBy: Option<string>, ville: Option<string>, search: Option<string>)
    requires Wf(s) && Effective(search)
    ensures forall x :: x in GetAllFournisseurs(s, sortBy, ville, search).data.list <==>
      x in s.rows.Values && KeywordOccurs(search.value, x.details)
  {
  }

  /** Without a search, a non-blank city wins over the sort key: that city's rows. */
  lemma GetAllFiltersByVille(s: Store, sortBy: Option<string>, ville: Option<string>, search: Option<string>)
    requires Wf(s) && !Effective(search) && Effective(ville)
    ensures forall x :: x in GetAllFournisseurs(s, sortBy, ville, search).data.list <==>
      x in s.rows.Values && x.details.ville == ville.value
  {
  }

  /** Without a search or a city every row is listed, each once. */
  lemma GetAllListsEveryRow(s: Store, sortBy: Option<string>, ville: Option<string>, search: Option<string>)
    requires Wf(s) && !Effective(search) && !Effective(ville)
    ensures var list := GetAllFournisseurs(s, sortBy, ville, search).data.list;
      && |list| == |s.rows|
      && (forall x :: x in list <==> x in s.rows.Values)
  {
    var l := ChooseListing(sortBy, ville, search);
    var list := RunListing(s, l);
    if l != Plain {
      forall x ensures x in list <==> x in s.rows.Values {
        SortedListingsAreStore(s, x);
      }
      SortedListingsAreStore(s, Fournisseur(None, Details("", "", "", "", "", "", ""), None, None));
    }
  }

  /** Without a search or a city, the list is in the order the sort key asks
      for; any other sort key, or none, gives the plain `findAll` list. */
  lemma GetAllSortsWhenAsked(s: Store, sortBy: Option<string>, ville: Option<string>, search: Option<string>)
    requires !Effective(search) && !Effective(ville)
    ensures AsksBySociete(sortBy) ==> Sorted(BySociete, GetAllFournisseurs(s, sortBy, ville, search).data.list)
    ensures !AsksBySociete(sortBy) && AsksByVille(sortBy) ==>
      Sorted(ByVilleThenSociete, GetAllFournisseurs(s, sortBy, ville, search).data.list)
    ensures !AsksBySociete(sortBy) && !AsksByVille(sortBy) ==>
      GetAllFournisseurs(s, sortBy, ville, search).data.list == FindAll(s)
  {
    var l := ChooseListing(sortBy, ville, search);
    assert GetAllFournisseurs(s, sortBy, ville, search).data.list == RunListing(s, l);
    if AsksBySociete(sortBy) {
      assert l == SortedBySociete;
    } else if AsksByVille(sortBy) {
      assert l == SortedByVilleThenSociete;
    } else {
      assert l == Plain;
    }
  }

  /** "nom" and "societe" are recognised in any ASCII casing ("NOM", "Societe"). */
  lemma SortBySocieteIgnoresAsciiCase(key: string)
    requires Lower(key) == "nom" || Lower(key) == "societe"
    ensures ChooseListing(Some(key), None, None) == SortedBySociete
  {
  }

  /** "ville" is recognised in any ASCII casing ("VILLE", "Ville"). */
  lemma SortByVilleIgnoresAsciiCase(key: string)
    requires Lower(key) == "ville"
    ensures ChooseListing(Some(key), None, None) == SortedByVilleThenSociete
  {
  }

  // ----- GET /api/v1/fournisseurs/{id} -----

  function GetFournisseurById(s: Store, id: int): (r: Response)
    ensures r.status == OK <==> id in s.rows
    ensures r.status == OK ==> r.data == One(s.rows[id])
    ensures r.status != OK ==> r == HandleError(NotFound(id))
  {
    match FournisseurService.GetFournisseurById(s, id)
    case Some(f) => Response(OK, true, "Fournisseur récupéré avec succès", One(f), None)
    case None => HandleError(NotFound(id))
  }

  // ----- POST /api/v1/fournisseurs -----

  function CreateFournisseur(s: Store, b: Body, emailOk: string -> bool, t1: Time, t2: Time): (x: Exchange)
    ensures x.response.status == BAD_REQUEST <==> Validate(b, emailOk) != map[]
    ensures x.response.status == BAD_REQUEST ==> x.store == s && x.response.errors == Some(Validate(b, emailOk))
  {
    var errors := Validate(b, emailOk);
    if errors != map[] then Exchange(s, ValidationFailure(errors))
    else
      var o := FournisseurService.CreateFournisseur(s, Accepted(b, emailOk), t1, t2);
      match o.result
      case Success(f) => Exchange(o.store, Response(CREATED, true, "Fournisseur créé avec succès", One(f), None))
      case Failure(e) => Exchange(o.store, HandleError(e))
  }

  /** A complete, well-formed body: 201 with the stored row when email and ICE
      are both new, 409 otherwise; either way the invariant holds afterwards. */
  lemma CreateOutcomes(s: Store, b: Body, emailOk: string -> bool, t1: Time, t2: Time)
    requires FournisseurService.Invariant(s) && t1 <= t2
    requires Validate(b, emailOk) == map[]
    ensures var x := CreateFournisseur(s, b, emailOk, t1, t2);
      var d := Accepted(b, emailOk);
      var isNew := forall k :: k in s.rows ==> s.rows[k].details.email != d.email && s.rows[k].details.ice != d.ice;
      && FournisseurService.Invariant(x.store)
      && (x.response.status == CREATED <==> isNew)
      && (x.response.status == CONFLICT <==> !isNew)
      && (x.response.status == CONFLICT ==> x.store == s)
      && (x.response.status == CREATED ==>
            && x.response.data.One?
            && x.response.data.fournisseur.details == d
            && FindById(x.store, s.nextId) == Some(x.response.data.fournisseur)
            && |x.store.rows| == |s.rows| + 1)
  {
    var d := Accepted(b, emailOk);
    FournisseurService.CreatePreservesInvariant(s, d, t1, t2);
    if forall k :: k in s.rows ==> s.rows[k].details.email != d.email && s.rows[k].details.ice != d.ice {
      FournisseurService.CreateAddsOneRow(s, d, t1, t2);
    }
  }

  /** Posting the same body twice: after a 201 the second answer is 409 on the
      email, and after a refusal it is the same refusal; the second post never
      writes. */
  lemma PostingTwiceConflicts(s: Store, b: Body, emailOk: string -> bool, t1: Time, t2: Time, t3: Time, t4: Time)
    requires FournisseurService.Invariant(s) && t1 <= t2
    requires Validate(b, emailOk) == map[]
    ensures var x1 := CreateFournisseur(s, b, emailOk, t1, t2);
      var x2 := CreateFournisseur(x1.store, b, emailOk, t3, t4);
      && x2.response.status == CONFLICT
      && x2.store == x1.store
      && (x1.response.status == CREATED ==> x2.response.message == "Un fournisseur avec cet email existe déjà")
      && (x1.response.status != CREATED ==> x2.response == x1.response)
  {
    var d := Accepted(b, emailOk);
    var x1 := CreateFournisseur(s, b, emailOk, t1, t2);
    CreateOutcomes(s, b, emailOk, t1, t2);
    if x1.response.status == CREATED {
      assert x1.store.rows[s.nextId].details.email == d.email;
      FournisseurService.CreateRejectsTakenEmail(x1.store, d, t3, t4);
    }
  }

  // ----- PUT /api/v1/fournisseurs/{id} -----

  function UpdateFournisseur(s: Store, id: int, b: Body, emailOk: string -> bool, t: Time): (x: Exchange)
    ensures x.response.status == BAD_REQUEST <==> Validate(b, emailOk) != map[]
    ensures x.response.status == BAD_REQUEST ==> x.store == s && x.response.errors == Some(Validate(b, emailOk))
  {
    var errors := Validate(b, emailOk);
    if errors != map[] then Exchange(s, ValidationFailure(errors))
    else
      var o := FournisseurService.UpdateFournisseur(s, id, Accepted(b, emailOk), t);
      match o.result
      case Success(f) => Exchange(o.store, Response(OK, true, "Fournisseur mis à jour avec succès", One(f), None))
      case Failure(e) => Exchange(o.store, HandleError(e))
  }

  /** A body with field errors is answered 400 before the id is looked up:
      the error map names exactly the invalid fields and nothing is written. */
  lemma InvalidBodyIsRejectedFirst(s: Store, id: int, b: Body, emailOk: string -> bool, t1: Time, t2: Time)
    requires exists f :: !FieldValid(f, Value(b, f), emailOk)
    ensures var post := CreateFournisseur(s, b, emailOk, t1, t2);
      var put := UpdateFournisseur(s, id, b, emailOk, t2);
      && post.store == s && put.store == s
      && post.response == put.response
      && post.response.status == BAD_REQUEST && !post.response.success
      && post.response.errors.Some?
      && (forall f :: f in post.response.errors.value <==> !FieldValid(f, Value(b, f), emailOk))
  {
    var f :| !FieldValid(f, Value(b, f), emailOk);
    assert f in Validate(b, emailOk);
  }

  /** A complete, well-formed body on PUT: 404 for an absent id, 409 when
      another row holds the new email or ICE, 200 otherwise with the row
      replaced; the invariant holds afterwards. */
  lemma UpdateOutcomes(s: Store, id: int, b: Body, emailOk: string -> bool, t: Time)
    requires FournisseurService.Invariant(s)
    requires id in s.rows ==> s.rows[id].updatedAt.value <= t
    requires Validate(b, emailOk) == map[]
    ensures var x := UpdateFournisseur(s, id, b, emailOk, t);
      var d := Accepted(b, emailOk);
      && FournisseurService.Invariant(x.store)
      && (x.response.status == NOT_FOUND <==> id !in s.rows)
      && (x.response.status == CONFLICT <==>
            id in s.rows && (HeldByOther(s, id, EmailKey, d.email) || HeldByOther(s, id, IceKey, d.ice)))
      && (x.response.status == OK <==>
            id in s.rows && !HeldByOther(s, id, EmailKey, d.email) && !HeldByOther(s, id, IceKey, d.ice))
      && (x.response.status == OK ==>
            && x.response.data.One?
            && x.response.data.fournisseur.details == d
            && FindById(x.store, id) == Some(x.response.data.fournisseur))
      && (x.response.status != OK ==> x.store == s)
  {
    var d := Accepted(b, emailOk);
    FournisseurService.UpdatePreservesInvariant(s, id, d, t);
    if id in s.rows {
      FournisseurService.UpdateConflictIffHeldByOther(s, id, d, t);
    }
  }

  // ----- DELETE /api/v1/fournisseurs/{id} -----

  function DeleteFournisseur(s: Store, id: int): (x: Exchange)
    ensures x.response.status == OK <==> id in s.rows
    ensures x.response.status != OK ==> x.store == s && x.response == HandleError(NotFound(id))
  {
    var o := FournisseurService.DeleteFournisseur(s, id);
    match o.result
    case Success(_) => Exchange(o.store, Response(OK, true, "Fournisseur supprimé avec succès", NoData, None))
    case Failure(e) => Exchange(o.store, HandleError(e))
  }

  /** After a DELETE the same id answers 404, on GET and on a second DELETE. */
  lemma DeleteThenGetIsNotFound(s: Store, id: int)
    requires FournisseurService.Invariant(s)
    ensures var s' := DeleteFournisseur(s, id).store;
      && FournisseurService.Invariant(s')
      && GetFournisseurById(s', id).status == NOT_FOUND
      && DeleteFournisseur(s', id).response.status == NOT_FOUND
  {
    FournisseurService.DeleteThenGetIsEmpty(s, id);
  }

  // ----- GET /api/v1/fournisseurs/count -----

  function CountFournisseurs(s: Store, ville: Option<string>): (r: Response)
    ensures r.status == OK && r.success && r.data.Number?
    ensures Effective(ville) ==> r.message == "Nombre de fournisseurs dans la ville " + ville.value
    ensures !Effective(ville) ==> r.message == "Nombre total de fournisseurs"
  {
    if Effective(ville) then
      Response(OK, true, "Nombre de fournisseurs dans la ville " + ville.value, Number(CountByVille(s, ville.value)), None)
    else
      Response(OK, true, "Nombre total de fournisseurs", Number(Count(s)), None)
  }

  /** The count answers the length of the listing with the same city
      parameter: the city's rows when it is given, all rows when it is blank. */
  lemma CountAgreesWithListing(s: Store, ville: Option<string>)
    requires Wf(s)
    ensures CountFournisseurs(s, ville).data.count == |GetAllFournisseurs(s, None, ville, None).data.list|
  {
    if Effective(ville) {
      assert ChooseListing(None, ville, None) == InVille(ville.value);
      assert CountByVille(s, ville.value) == |FindByVille(s, ville.value)|;
    } else {
      assert ChooseListing(None, ville, None) == Plain;
      assert Count(s) == |FindAll(s)|;
    }
  }

  // ----- All endpoints -----

  /** One HTTP request, with the clock readings the persistence hooks take. */
  datatype Request =
    | ListRequest(sortBy: Option<string>, ville: Option<string>, search: Option<string>)
    | GetRequest(id: int)
    | PostRequest(body: Body, t1: Time, t2: Time)
    | PutRequest(id: int, body: Body, t: Time)
    | DeleteRequest(id: int)
    | CountRequest(ville: Option<string>)

  function Handle(s: Store, req: Request, emailOk: string -> bool): Exchange {
    match req
    case ListRequest(sortBy, ville, search) => Exchange(s, GetAllFournisseurs(s, sortBy, ville, search))
    case GetRequest(id) => Exchange(s, GetFournisseurById(s, id))
    case PostRequest(b, t1, t2) => CreateFournisseur(s, b, emailOk, t1, t2)
    case PutRequest(id, b, t) => UpdateFournisseur(s, id, b, emailOk, t)
    case DeleteRequest(id) => DeleteFournisseur(s, id)
    case CountRequest(ville) => Exchange(s, CountFournisseurs(s, ville))
  }

  predicate IsRead(req: Request) {
    req.ListRequest? || req.GetRequest? || req.CountRequest?
  }

  /** The clock does not run backwards within a request or behind the row updated. */
  predicate ClockOk(s: Store, req: Request) {
    match req
    case PostRequest(_, t1, t2) => FournisseurService.CreateClockOk(t1, t2)
    case PutRequest(id, _, t) => FournisseurService.UpdateClockOk(s, id, t)
    case _ => true
  }

  /** What every answer keeps: the success flag agrees with the status, the
      status is one the controller sends, a failure writes nothing, and the
      table invariant holds afterwards. */
  predicate Sound(s: Store, x: Exchange) {
    && (x.response.success <==> x.response.status < 400)
    && x.response.status in {OK, CREATED, BAD_REQUEST, NOT_FOUND, CONFLICT, INTERNAL_SERVER_ERROR}
    && (!x.response.success ==> x.store == s)
    && FournisseurService.Invariant(x.store)
  }

  lemma PostIsSound(s: Store, b: Body, emailOk: string -> bool, t1: Time, t2: Time)
    requires FournisseurService.Invariant(s) && t1 <= t2
    ensures Sound(s, CreateFournisseur(s, b, emailOk, t1, t2))
  {
    if Validate(b, emailOk) == map[] {
      CreateOutcomes(s, b, emailOk, t1, t2);
    }
  }

  lemma PutIsSound(s: Store, id: int, b: Body, emailOk: string -> bool, t: Time)
    requires FournisseurService.Invariant(s)
    requires id in s.rows ==> s.rows[id].updatedAt.value <= t
    ensures Sound(s, UpdateFournisseur(s, id, b, emailOk, t))
  {
    if Validate(b, emailOk) == map[] {
      UpdateOutcomes(s, id, b, emailOk, t);
    }
  }

  /** Every request is answered soundly, and reads write nothing. */
  lemma HandleKeepsContracts(s: Store, req: Request, emailOk: string -> bool)
    requires FournisseurService.Invariant(s) && ClockOk(s, req)
    ensures Sound(s, Handle(s, req, emailOk))
    ensures IsRead(req) ==> Handle(s, req, emailOk).store == s
  {
    match req
    case PostRequest(b, t1, t2) => PostIsSound(s, b, emailOk, t1, t2);
    case PutRequest(id, b, t) => PutIsSound(s, id, b, emailOk, t);
    case DeleteRequest(id) => FournisseurService.DeleteThenGetIsEmpty(s, id);
    case _ =>
  }
}

=== FILE: exceptions.dfy ===
/** The failures the service raises and the controller translates: a missing
    id, a duplicate unique column, and any other (storage) failure. */
module Exceptions {

  /** The two columns that carry a unique constraint. */
  datatype UniqueKey = EmailKey | IceKey

  datatype Error =
    | NotFound(id: int)
    | AlreadyExists(key: UniqueKey)
    | Internal(detail: string)

  /** The character of the decimal digit `k`. */
  function DigitChar(k: int): (c: char)
    requires 0 <= k < 10
    ensures '0' <= c <= '9' && c as int - '0' as int == k
  {
    ('0' as int + k) as char
  }

  /** The value of a string of decimal digits. */
  function ParseDigits(s: string): int
    decreases |s|
  {
    if |s| == 0 then 0 else 10 * ParseDigits(s[..|s| - 1]) + (s[|s| - 1] as int - '0' as int)
  }

  /** The value of an optional minus sign followed by decimal digits. */
  function ParseDecimal(s: string): int {
    if |s| > 0 && s[0] == '-' then -ParseDigits(s[1..]) else ParseDigits(s)
  }

  /** Decimal rendering of a Long, as string concatenation does it: a minus
      sign for a negative number, then digits without a leading zero (except
      for 0 itself); reading it back gives the number. */
  function DecimalString(n: int): (r: string)
    ensures |r| > 0
    ensures forall i | (n < 0 ==> 1 <= i) && 0 <= i < |r| :: '0' <= r[i] <= '9'
    ensures n < 0 ==> r[0] == '-' && |r| >= 2 && r[1] != '0'
    ensures n >= 0 ==> (r[0] == '0' ==> r == "0")
    ensures n >= 0 ==> ParseDigits(r) == n
    ensures ParseDecimal(r) == n
    decreases if n < 0 then 1 - n else n
  {
    if n < 0 then
      var r := "-" + DecimalString(-n);
      assert r[1..] == DecimalString(-n);
      r
    else if n < 10 then [DigitChar(n)]
    else
      var front := DecimalString(n / 10);
      var r := front + [DigitChar(n % 10)];
      assert r[..|r| - 1] == front;
      r
  }

  const NotFoundPrefix: string := "Fournisseur non trouvé avec l'ID: "

  /** The exception message each failure carries; a not-found message ends
      with the id in decimal. */
  function Message(e: Error): (m: string)
    ensures e.NotFound? ==> NotFoundPrefix <= m && ParseDecimal(m[|NotFoundPrefix|..]) == e.id
  {
    match e
    case NotFound(id) =>
      var m := NotFoundPrefix + DecimalString(id);
      assert m[|NotFoundPrefix|..] == DecimalString(id);
      m
    case AlreadyExists(EmailKey) => "Un fournisseur avec cet email existe déjà"
    case AlreadyExists(IceKey) => "Un fournisseur avec cet ICE existe déjà"
    case Internal(detail) => detail
  }

  /** Where the fixed messages differ: a not-found message starts with 'F' and
      an already-exists one with 'U'; the two already-exists messages part at
      the column name. */
  lemma MessageMarkers(e: Error)
    requires !e.Internal?
    ensures |Message(e)| > 24
    ensures Message(e)[0] == if e.NotFound? then 'F' else 'U'
    ensures e == AlreadyExists(EmailKey) ==> Message(e)[24] == 'e'
    ensures e == AlreadyExists(IceKey) ==> Message(e)[24] == 'I'
  {
  }

  /** A not-found or already-exists message determines the failure: different
      ids, or different columns, give different messages. */
  lemma MessagesIdentifyError(e1: Error, e2: Error)
    requires !e1.Internal? && !e2.Internal?
    ensures Message(e1) == Message(e2) <==> e1 == e2
  {
    MessageMarkers(e1);
    MessageMarkers(e2);
    if e1.NotFound? && e2.NotFound? {
      var n := |NotFoundPrefix|;
      assert Message(e1) == Message(e2) ==> Message(e1)[n..] == Message(e2)[n..];
    }
  }
}

=== FILE: fournisseur.dfy ===
/** The supplier entity: its seven business fields, the bean-validation rules
    on them, the seven-argument constructor, and the two lifecycle hooks that
    stamp the creation and update times. */
module FournisseurEntity {
  import opened Results
  import opened Strings

  /** A clock reading. The system clock is outside the model; readings are
      passed in, and "monotone" is a hypothesis where it is needed. */
  type Time = nat

  /** The seven business fields, in declaration order. */
  datatype Details = Details(
    societe: string,
    adresse: string,
    contact: string,
    email: string,
    telephone: string,
    ville: string,
    ice: string)

  /** A supplier. `id` and the timestamps are absent (Java null) until the
      store assigns them. */
  datatype Fournisseur = Fournisseur(
    id: Option<int>,
    details: Details,
    createdAt: Option<Time>,
    updatedAt: Option<Time>)

  /** A stored row under key `k`: its id is `k`, both timestamps are set, and
      the record was never updated before it was created. */
  predicate Persisted(k: int, f: Fournisseur) {
    && f.id == Some(k)
    && f.createdAt.Some?
    && f.updatedAt.Some?
    && f.createdAt.value <= f.updatedAt.value
  }

  /** The seven-argument constructor: business fields only, nothing persisted yet. */
  function New(d: Details): (f: Fournisseur)
    ensures f.details == d
    ensures f.id.None? && f.createdAt.None? && f.updatedAt.None?
    ensures forall k :: !Persisted(k, f)
  {
    Fournisseur(None, d, None, None)
  }

  /** The @PrePersist hook: two separate clock readings, one per timestamp. */
  function OnCreate(f: Fournisseur, t1: Time, t2: Time): (g: Fournisseur)
    ensures g.id == f.id && g.details == f.details
    ensures g.createdAt == Some(t1) && g.updatedAt == Some(t2)
  {
    f.(createdAt := Some(t1), updatedAt := Some(t2))
  }

  /** Given a clock that does not run backwards, the hook leaves the record
      with both timestamps set and `createdAt <= updatedAt`. */
  lemma OnCreateOrdersTimestamps(f: Fournisseur, k: int, t1: Time, t2: Time)
    requires f.id == Some(k) && t1 <= t2
    ensures Persisted(k, OnCreate(f, t1, t2))
  {
  }

  /** The @PreUpdate hook: only `updatedAt` is written; `createdAt` is not updatable. */
  function OnUpdate(f: Fournisseur, t: Time): (g: Fournisseur)
    ensures g.updatedAt == Some(t)
    ensures g.id == f.id && g.details == f.details && g.createdAt == f.createdAt
  {
    f.(updatedAt := Some(t))
  }

  /** A persisted row stays persisted under the update hook when the clock
      reading is not earlier than its last update. */
  lemma OnUpdateKeepsPersisted(f: Fournisseur, k: int, t: Time)
    requires Persisted(k, f) && f.updatedAt.value <= t
    ensures Persisted(k, OnUpdate(f, t))
    ensures OnUpdate(f, t).createdAt == f.createdAt
  {
  }

  // ----- Field validation -----

  datatype Field = Societe | Adresse | Contact | Email | Telephone | Ville | Ice

  const AllFields: set<Field> := {Societe, Adresse, Contact, Email, Telephone, Ville, Ice}

  lemma AllFieldsListed(f: Field)
    ensures f in AllFields
  {
  }

  /** The JSON and error-map key of each field. */
  function FieldName(f: Field): string {
    match f
    case Societe => "societe"
    case Adresse => "adresse"
    case Contact => "contact"
    case Email => "email"
    case Telephone => "telephone"
    case Ville => "ville"
    case Ice => "ice"
  }

  /** The controller keys its error map by `error.getField()`, the field's
      name. No two fields share a name, so a map keyed by `Field`, as
      `Validate` returns it, carries the same entries. */
  lemma FieldNamesDistinct(f: Field, g: Field)
    ensures FieldName(f) == FieldName(g) <==> f == g
  {
  }

  /** A request body as bound from JSON: any field may be missing (null). */
  datatype Body = Body(
    societe: Option<string>,
    adresse: Option<string>,
    contact: Option<string>,
    email: Option<string>,
    telephone: Option<string>,
    ville: Option<string>,
    ice: Option<string>)

  function Value(b: Body, f: Field): Option<string> {
    match f
    case Societe => b.societe
    case Adresse => b.adresse
    case Contact => b.contact
    case Email => b.email
    case Telephone => b.telephone
    case Ville => b.ville
    case Ice => b.ice
  }

  /** `^[0-9]{15}$` */
  predicate IcePattern(s: string) {
    |s| == 15 && AllDigits(s)
  }

  /** `^\+?[0-9]{10,15}$`: an optional plus sign, then 10 to 15 digits and nothing else. */
  predicate TelephonePattern(s: string) {
    || (10 <= |s| <= 15 && AllDigits(s))
    || (|s| > 0 && s[0] == '+' && 10 <= |s| - 1 <= 15 && AllDigits(s[1..]))
  }

  /** An executable matcher for the ICE pattern: a left-to-right scan for
      `^[0-9]{15}$`, proved to accept exactly the strings `IcePattern` holds
      of. Validation states the rule through the predicate; the scan shows it
      is decided in one pass. */
  method MatchIce(s: string) returns (ok: bool)
    ensures ok <==> IcePattern(s)
  {
    if |s| != 15 {
      return false;
    }
    var i := 0;
    while i < |s|
      invariant 0 <= i <= |s|
      invariant forall j :: 0 <= j < i ==> IsDigit(s[j])
    {
      if !IsDigit(s[i]) {
        return false;
      }
      i := i + 1;
    }
    return true;
  }

  /** An executable matcher for the telephone pattern: a left-to-right scan
      for `^\+?[0-9]{10,15}$` that skips one optional `+`, then counts digits
      up to the first non-digit. It accepts exactly the strings
      `TelephonePattern` holds of, the predicate validation is stated with. */
  method MatchTelephone(s: string) returns (ok: bool)
    ensures ok <==> TelephonePattern(s)
  {
    var start := if |s| > 0 && s[0] == '+' then 1 else 0;
    var i := start;
    while i < |s| && IsDigit(s[i])
      invariant start <= i <= |s|
      invariant forall j :: start <= j < i ==> IsDigit(s[j])
    {
      i := i + 1;
    }
    ok := i == |s| && 10 <= i - start <= 15;
    if start == 1 {
      assert ok <==> (10 <= |s| - 1 <= 15 && AllDigits(s[1..])) by {
        if i == |s| {
          assert forall j :: 0 <= j < |s| - 1 ==> s[1..][j] == s[j + 1];
        } else {
          assert !IsDigit(s[1..][i - 1]);
        }
      }
      assert !AllDigits(s) by { assert !IsDigit(s[0]); }
    } else if i < |s| {
      assert !IsDigit(s[i]);
    }
  }

  /** The @NotBlank message of each field. */
  function RequiredMessage(f: Field): string {
    match f
    case Societe => "La société est obligatoire"
    case Adresse => "L'adresse est obligatoire"
    case Contact => "Le contact est obligatoire"
    case Email => "L'email est obligatoire"
    case Telephone => "Le téléphone est obligatoire"
    case Ville => "La ville est obligatoire"
    case Ice => "L'ICE est obligatoire"
  }

  /** The second constraint of each field (@Size, @Email or @Pattern) on a
      non-null value. `emailOk` stands for the @Email syntax check, which like
      Hibernate's accepts the empty string. */
  predicate ShapeOk(f: Field, s: string, emailOk: string -> bool) {
    match f
    case Societe => 2 <= |s| <= 100
    case Adresse => |s| <= 255
    case Contact => |s| <= 100
    case Email => |s| == 0 || emailOk(s)
    case Telephone => TelephonePattern(s)
    case Ville => |s| <= 100
    case Ice => IcePattern(s)
  }

  function ShapeMessage(f: Field): string {
    match f
    case Societe => "La société doit contenir entre 2 et 100 caractères"
    case Adresse => "L'adresse ne peut pas dépasser 255 caractères"
    case Contact => "Le contact ne peut pas dépasser 100 caractères"
    case Email => "L'email doit être valide"
    case Telephone => "Le téléphone doit être valide (10-15 chiffres)"
    case Ville => "La ville ne peut pas dépasser 100 caractères"
    case Ice => "L'ICE doit contenir exactement 15 chiffres"
  }

  /** The messages of the constraints value `v` of field `f` breaks, in
      annotation order. Only @NotBlank rejects null. */
  function Violations(f: Field, v: Option<string>, emailOk: string -> bool): seq<string> {
    (if v.None? || IsBlank(v.value) then [RequiredMessage(f)] else [])
    + (if v.Some? && !ShapeOk(f, v.value, emailOk) then [ShapeMessage(f)] else [])
  }

  predicate FieldValid(f: Field, v: Option<string>, emailOk: string -> bool) {
    Violations(f, v, emailOk) == []
  }

  /** Company name: present, not blank, 2 to 100 characters. */
  lemma SocieteRule(v: Option<string>, emailOk: string -> bool)
    ensures FieldValid(Societe, v, emailOk)
        <==> v.Some? && !IsBlank(v.value) && 2 <= |v.value| <= 100
  {
  }

  /** Address, contact and city: present, not blank, within their ceiling. */
  lemma TextRules(v: Option<string>, emailOk: string -> bool)
    ensures FieldValid(Adresse, v, emailOk) <==> v.Some? && !IsBlank(v.value) && |v.value| <= 255
    ensures FieldValid(Contact, v, emailOk) <==> v.Some? && !IsBlank(v.value) && |v.value| <= 100
    ensures FieldValid(Ville, v, emailOk) <==> v.Some? && !IsBlank(v.value) && |v.value| <= 100
  {
  }

  /** Email: present, not blank, and accepted by the syntax check. */
  lemma EmailRule(v: Option<string>, emailOk: string -> bool)
    ensures FieldValid(Email, v, emailOk) <==> v.Some? && !IsBlank(v.value) && emailOk(v.value)
  {
  }

  /** ICE: present and exactly 15 ASCII digits; @NotBlank adds nothing to the pattern. */
  lemma IceRule(v: Option<string>, emailOk: string -> bool)
    ensures FieldValid(Ice, v, emailOk) <==> v.Some? && |v.value| == 15 && AllDigits(v.value)
  {
    if v.Some? && IcePattern(v.value) {
      assert !IsTrimmable(v.value[0]);
    }
  }

  /** Telephone: present, an optional `+`, then 10 to 15 ASCII digits and nothing else. */
  lemma TelephoneRule(v: Option<string>, emailOk: string -> bool)
    ensures FieldValid(Telephone, v, emailOk) <==> v.Some? && TelephonePattern(v.value)
  {
    if v.Some? && TelephonePattern(v.value) {
      assert !IsTrimmable(v.value[|v.value| - 1]);
    }
  }

  /** The binding-result error map: one entry per invalid field, holding the
      message of one constraint that field breaks. */
  function Validate(b: Body, emailOk: string -> bool): (errors: map<Field, string>)
    ensures forall f :: f in errors <==> !FieldValid(f, Value(b, f), emailOk)
    ensures forall f :: f in errors ==> errors[f] in Violations(f, Value(b, f), emailOk)
  {
    forall f: Field { AllFieldsListed(f); }
    map f | f in AllFields && !FieldValid(f, Value(b, f), emailOk) :: Violations(f, Value(b, f), emailOk)[0]
  }

  /** Every field is @NotBlank, so a null value is always an error. */
  lemma NullIsInvalid(f: Field, emailOk: string -> bool)
    ensures !FieldValid(f, None, emailOk)
  {
  }

  /** A field without a validation error is present. */
  lemma PresentWhenValid(b: Body, f: Field, emailOk: string -> bool)
    requires f !in Validate(b, emailOk)
    ensures Value(b, f).Some?
  {
    NullIsInvalid(f, emailOk);
  }

  /** Helper of `ValidBodyIsComplete`: no validation error means every field,
      taken through `Value`, is present. */
  lemma ValidBodyHasEveryField(b: Body, emailOk: string -> bool)
    requires Validate(b, emailOk) == map[]
    ensures forall f :: Value(b, f).Some?
  {
    forall f ensures Value(b, f).Some? {
      PresentWhenValid(b, f, emailOk);
    }
  }

  /** "Every field has a value" read off for the seven named members of the body. */
  lemma AllFieldsPresentByName(b: Body)
    requires forall f :: Value(b, f).Some?
    ensures b.societe.Some? && b.adresse.Some? && b.contact.Some? && b.email.Some?
    ensures b.telephone.Some? && b.ville.Some? && b.ice.Some?
  {
    assert Value(b, Societe).Some? && Value(b, Adresse).Some? && Value(b, Contact).Some?;
    assert Value(b, Email).Some? && Value(b, Telephone).Some? && Value(b, Ville).Some? && Value(b, Ice).Some?;
  }

  /** A body with no validation error has all seven fields present. */
  lemma ValidBodyIsComplete(b: Body, emailOk: string -> bool)
    requires Validate(b, emailOk) == map[]
    ensures b.societe.Some? && b.adresse.Some? && b.contact.Some? && b.email.Some?
    ensures b.telephone.Some? && b.ville.Some? && b.ice.Some?
  {
    ValidBodyHasEveryField(b, emailOk);
    AllFieldsPresentByName(b);
  }

  /** The business fields of a body that passed validation. */
  function ToDetails(b: Body): (d: Details)
    requires b.societe.Some? && b.adresse.Some? && b.contact.Some? && b.email.Some?
    requires b.telephone.Some? && b.ville.Some? && b.ice.Some?
    ensures forall f :: Value(b, f) == Some(DetailValue(d, f))
  {
    Details(b.societe.value, b.adresse.value, b.contact.value, b.email.value,
            b.telephone.value, b.ville.value, b.ice.value)
  }

  function DetailValue(d: Details, f: Field): string {
    match f
    case Societe => d.societe
    case Adresse => d.adresse
    case Contact => d.contact
    case Email => d.email
    case Telephone => d.telephone
    case Ville => d.ville
    case Ice => d.ice
  }
}

=== FILE: ordering.dfy ===
/** The two fixed orders the repository sorts by, and a sort that produces
    them: company ascending, and city ascending then company ascending. */
module Ordering {
  import opened Strings
  import opened FournisseurEntity

  datatype Order = BySociete | ByVilleThenSociete

  /** `a` may come before `b` under order `o`. */
  predicate Le(o: Order, a: Fournisseur, b: Fournisseur) {
    match o
    case BySociete => StrLe(a.details.societe, b.details.societe)
    case ByVilleThenSociete =>
      || StrLt(a.details.ville, b.details.ville)
      || (a.details.ville == b.details.ville && StrLe(a.details.societe, b.details.societe))
  }

  lemma LeTotal(o: Order, a: Fournisseur, b: Fournisseur)
    ensures Le(o, a, b) || Le(o, b, a)
  {
    StrLeTotal(a.details.societe, b.details.societe);
    StrLeTotal(a.details.ville, b.details.ville);
  }

  lemma LeTransitive(o: Order, a: Fournisseur, b: Fournisseur, c: Fournisseur)
    requires Le(o, a, b) && Le(o, b, c)
    ensures Le(o, a, c)
  {
    var (va, vb, vc) := (a.details.ville, b.details.ville, c.details.ville);
    var (sa, sb, sc) := (a.details.societe, b.details.societe, c.details.societe);
    match o
    case BySociete =>
      StrLeTransitive(sa, sb, sc);
    case ByVilleThenSociete =>
      if va == vb && vb == vc {
        StrLeTransitive(sa, sb, sc);
      } else {
        StrLeReflexive(va);
        StrLeReflexive(vb);
        StrLeTransitive(va, vb, vc);
        if va == vc {
          StrLeAntisymmetric(va, vb);
        }
      }
  }

  /** Every earlier element may precede every later one. */
  predicate Sorted(o: Order, xs: seq<Fournisseur>) {
    forall i, j :: 0 <= i < j < |xs| ==> Le(o, xs[i], xs[j])
  }

  /** Prepending an element that may precede everything keeps a sequence sorted. */
  lemma PrependSorted(o: Order, h: Fournisseur, rest: seq<Fournisseur>)
    requires Sorted(o, rest)
    requires forall y :: y in multiset(rest) ==> Le(o, h, y)
    ensures Sorted(o, [h] + rest)
  {
    forall i, j | 0 <= i < j < |[h] + rest|
      ensures Le(o, ([h] + rest)[i], ([h] + rest)[j])
    {
      if i == 0 {
        assert rest[j - 1] in multiset(rest);
      }
    }
  }

  function Insert(o: Order, x: Fournisseur, xs: seq<Fournisseur>): (r: seq<Fournisseur>)
    requires Sorted(o, xs)
    ensures Sorted(o, r)
    ensures multiset(r) == multiset(xs) + multiset{x}
  {
    if |xs| == 0 then [x]
    else if Le(o, x, xs[0]) then
      InsertFront(o, x, xs);
      [x] + xs
    else
      var rest := Insert(o, x, xs[1..]);
      InsertBehind(o, x, xs, rest);
      [xs[0]] + rest
  }

  lemma InsertFront(o: Order, x: Fournisseur, xs: seq<Fournisseur>)
    requires Sorted(o, xs) && |xs| > 0 && Le(o, x, xs[0])
    ensures Sorted(o, [x] + xs)
  {
    forall y | y in multiset(xs) ensures Le(o, x, y) {
      var k :| 0 <= k < |xs| && xs[k] == y;
      if k > 0 { LeTransitive(o, x, xs[0], xs[k]); }
    }
    PrependSorted(o, x, xs);
  }

  lemma InsertBehind(o: Order, x: Fournisseur, xs: seq<Fournisseur>, rest: seq<Fournisseur>)
    requires Sorted(o, xs) && |xs| > 0 && !Le(o, x, xs[0])
    requires Sorted(o, rest) && multiset(rest) == multiset(xs[1..]) + multiset{x}
    ensures Sorted(o, [xs[0]] + rest)
    ensures multiset([xs[0]] + rest) == multiset(xs) + multiset{x}
  {
    LeTotal(o, x, xs[0]);
    assert xs == [xs[0]] + xs[1..];
    forall y | y in multiset(rest) ensures Le(o, xs[0], y) {
      if y != x {
        assert y in multiset(xs[1..]);
        var k :| 0 <= k < |xs[1..]| && xs[1..][k] == y;
        assert xs[k + 1] == y;
      }
    }
    PrependSorted(o, xs[0], rest);
  }

  /** Insertion sort under order `o`. */
  function Sort(o: Order, xs: seq<Fournisseur>): (r: seq<Fournisseur>)
    ensures Sorted(o, r)
    ensures multiset(r) == multiset(xs)
  {
    if |xs| == 0 then []
    else
      assert xs == [xs[0]] + xs[1..];
      Insert(o, xs[0], Sort(o, xs[1..]))
  }
}

=== FILE: repository.dfy ===
/** The supplier table and the queries the repository interface derives from
    method names or declares in JPQL, each as a function over the stored rows. */
module FournisseurRepository {
  import opened Results
  import opened Strings
  import opened FournisseurEntity
  import opened Ordering
  import opened Exceptions

  /** The table: rows by primary key, and the next value of the IDENTITY column. */
  datatype Store = Store(rows: map<int, Fournisseur>, nextId: int)

  const Empty: Store := Store(map[], 1)

  /** Keys come from the IDENTITY counter (starting at 1) and every row is
      persisted under its own key. */
  predicate Wf(s: Store) {
    && s.nextId >= 1
    && forall k :: k in s.rows ==> 1 <= k < s.nextId && Persisted(k, s.rows[k])
  }

  /** The two unique columns: no two rows share an email or an ICE. */
  predicate Unique(s: Store) {
    forall j, k :: j in s.rows && k in s.rows && j != k ==>
      && s.rows[j].details.email != s.rows[k].details.email
      && s.rows[j].details.ice != s.rows[k].details.ice
  }

  /** Some stored row other than `id` holds `value` in unique column `key`. */
  predicate HeldByOther(s: Store, id: int, key: UniqueKey, value: string) {
    exists k :: k in s.rows && k != id && KeyValue(s.rows[k], key) == value
  }

  function KeyValue(f: Fournisseur, key: UniqueKey): string {
    match key
    case EmailKey => f.details.email
    case IceKey => f.details.ice
  }

  // ----- Scanning and filtering -----

  /** The rows with keys in [lo, hi), in ascending key order. */
  function Scan(m: map<int, Fournisseur>, lo: int, hi: int): (r: seq<Fournisseur>)
    ensures forall x :: x in r <==> exists k :: lo <= k < hi && k in m && m[k] == x
    decreases hi - lo
  {
    if hi <= lo then []
    else Scan(m, lo, hi - 1) + (if hi - 1 in m then [m[hi - 1]] else [])
  }

  /** The WHERE clauses of the repository's queries. */
  datatype Criterion =
    | Everything
    | SocieteIs(societe: string)
    | VilleIs(ville: string)
    | IceIs(ice: string)
    | EmailIs(email: string)
    | EmailEndsWith(domain: string)
    | SocieteContainsIgnoreCase(part: string)
    | KeywordIgnoreCase(keyword: string)

  predicate Matches(c: Criterion, x: Fournisseur) {
    var d := x.details;
    match c
    case Everything => true
    case SocieteIs(n) => d.societe == n
    case VilleIs(v) => d.ville == v
    case IceIs(i) => d.ice == i
    case EmailIs(e) => d.email == e
    case EmailEndsWith(dom) => EndsWith(d.email, dom)
    case SocieteContainsIgnoreCase(p) => ContainsIgnoreCase(d.societe, p)
    case KeywordIgnoreCase(k) =>
      || ContainsIgnoreCase(d.societe, k)
      || ContainsIgnoreCase(d.ville, k)
      || ContainsIgnoreCase(d.contact, k)
  }

  /** The elements of `xs` that satisfy `c`, in their original order. */
  function Select(xs: seq<Fournisseur>, c: Criterion): (r: seq<Fournisseur>)
    ensures forall x :: x in r <==> x in xs && Matches(c, x)
    ensures |r| <= |xs|
  {
    if |xs| == 0 then []
    else (if Matches(c, xs[0]) then [xs[0]] else []) + Select(xs[1..], c)
  }

  lemma {:induction false} SelectAppend(a: seq<Fournisseur>, b: seq<Fournisseur>, c: Criterion)
    ensures Select(a + b, c) == Select(a, c) + Select(b, c)
    decreases |a|
  {
    if |a| > 0 {
      assert (a + b)[1..] == a[1..] + b;
      SelectAppend(a[1..], b, c);
    } else {
      assert a + b == b;
    }
  }

  /** The keys in [lo, hi) whose rows satisfy `c`. */
  function KeysWhere(m: map<int, Fournisseur>, lo: int, hi: int, c: Criterion): set<int> {
    set k | k in m && lo <= k < hi && Matches(c, m[k])
  }

  lemma KeysWhereStep(m: map<int, Fournisseur>, lo: int, hi: int, c: Criterion)
    requires lo < hi
    ensures hi - 1 !in KeysWhere(m, lo, hi - 1, c)
    ensures KeysWhere(m, lo, hi, c)
         == KeysWhere(m, lo, hi - 1, c) + (if hi - 1 in m && Matches(c, m[hi - 1]) then {hi - 1} else {})
  {
  }

  /** Filtering the scan yields one row per matching key: what SQL's COUNT counts. */
  lemma {:induction false} SelectScanCount(m: map<int, Fournisseur>, lo: int, hi: int, c: Criterion)
    ensures |Select(Scan(m, lo, hi), c)| == |KeysWhere(m, lo, hi, c)|
    decreases hi - lo
  {
    if hi <= lo {
      assert KeysWhere(m, lo, hi, c) == {};
    } else {
      var tail := if hi - 1 in m then [m[hi - 1]] else [];
      var front := Scan(m, lo, hi - 1);
      var keys := KeysWhere(m, lo, hi - 1, c);
      var hit := hi - 1 in m && Matches(c, m[hi - 1]);
      assert Scan(m, lo, hi) == front + tail;
      SelectAppend(front, tail, c);
      SelectScanCount(m, lo, hi - 1, c);
      KeysWhereStep(m, lo, hi, c);
      SelectLastKey(m, hi - 1, c);
      assert |Select(front + tail, c)| == |keys| + (if hit then 1 else 0);
      assert KeysWhere(m, lo, hi, c) == keys + (if hit then {hi - 1} else {});
      assert |keys + (if hit then {hi - 1} else {})| == |keys| + (if hit then 1 else 0);
    }
  }

  /** The scan's last step contributes one row to the filter exactly when that key matches. */
  lemma SelectLastKey(m: map<int, Fournisseur>, k: int, c: Criterion)
    ensures |Select(if k in m then [m[k]] else [], c)| == if k in m && Matches(c, m[k]) then 1 else 0
  {
    if k in m {
      assert [m[k]][1..] == [];
    }
  }

  // ----- Queries -----

  /** `findAll`: every row, in key order. */
  function FindAll(s: Store): (r: seq<Fournisseur>)
    ensures Wf(s) ==> forall x :: x in r <==> x in s.rows.Values
    ensures Wf(s) ==> |r| == |s.rows|
  {
    var r := Scan(s.rows, 1, s.nextId);
    if Wf(s) then
      SelectScanCount(s.rows, 1, s.nextId, Everything);
      assert Select(r, Everything) == r by { SelectEverything(r); }
      assert KeysWhere(s.rows, 1, s.nextId, Everything) == s.rows.Keys;
      assert |s.rows.Keys| == |s.rows|;
      r
    else r
  }

  lemma {:induction false} SelectEverything(xs: seq<Fournisseur>)
    ensures Select(xs, Everything) == xs
  {
    if |xs| > 0 {
      SelectEverything(xs[1..]);
      assert xs == [xs[0]] + xs[1..];
    }
  }

  /** The rows matching `c`, in key order. */
  function FindWhere(s: Store, c: Criterion): (r: seq<Fournisseur>)
    ensures Wf(s) ==> forall x :: x in r <==> x in s.rows.Values && Matches(c, x)
  {
    Select(FindAll(s), c)
  }

  /** Under the invariant the matching rows are as many as the matching keys. */
  lemma FindWhereCount(s: Store, c: Criterion)
    requires Wf(s)
    ensures |FindWhere(s, c)| == |set k | k in s.rows && Matches(c, s.rows[k])|
  {
    SelectScanCount(s.rows, 1, s.nextId, c);
    assert KeysWhere(s.rows, 1, s.nextId, c) == set k | k in s.rows && Matches(c, s.rows[k]);
  }

  /** `findById`. */
  function FindById(s: Store, id: int): (r: Option<Fournisseur>)
    ensures r.Some? <==> id in s.rows
    ensures r.Some? ==> r.value == s.rows[id]
  {
    if id in s.rows then Some(s.rows[id]) else None
  }

  /** `count()`: as many as `findAll` lists. */
  function Count(s: Store): (r: nat)
    ensures Wf(s) ==> r == |FindAll(s)|
  {
    |s.rows|
  }

  /** `countByVille`: as many as `findByVille` lists for the same city. */
  function CountByVille(s: Store, v: string): (r: nat)
    ensures Wf(s) ==> r == |FindByVille(s, v)|
  {
    var keys := set k | k in s.rows && s.rows[k].details.ville == v;
    if Wf(s) then
      FindWhereCount(s, VilleIs(v));
      assert keys == set k | k in s.rows && Matches(VilleIs(v), s.rows[k]);
      |keys|
    else |keys|
  }

  /** `findByVille`: exactly the rows whose city equals `v`. */
  function FindByVille(s: Store, v: string): (r: seq<Fournisseur>)
    ensures Wf(s) ==> forall x :: x in r <==> x in s.rows.Values && x.details.ville == v
  {
    FindWhere(s, VilleIs(v))
  }

  /** `findByEmailEndingWith`: exactly the rows whose email has suffix `d`. */
  function FindByEmailEndingWith(s: Store, d: string): (r: seq<Fournisseur>)
    ensures Wf(s) ==> forall x :: x in r <==> x in s.rows.Values && exists p :: p + d == x.details.email
  {
    var r := FindWhere(s, EmailEndsWith(d));
    forall x: Fournisseur { EndsWithIffSplit(x.details.email, d); }
    r
  }

  /** `findBySocieteContainingIgnoreCase`: the company name alone is searched. */
  function FindBySocieteContainingIgnoreCase(s: Store, part: string): (r: seq<Fournisseur>)
    ensures Wf(s) ==> forall x :: x in r <==>
      x in s.rows.Values && IsSubstring(Lower(part), Lower(x.details.societe))
  {
    FindWhere(s, SocieteContainsIgnoreCase(part))
  }

  /** The lower-cased keyword occurs in the lower-cased company, city or contact. */
  ghost predicate KeywordOccurs(keyword: string, d: Details) {
    || IsSubstring(Lower(keyword), Lower(d.societe))
    || IsSubstring(Lower(keyword), Lower(d.ville))
    || IsSubstring(Lower(keyword), Lower(d.contact))
  }

  /** The JPQL `searchFournisseurs`: the lower-cased keyword occurs in the
      lower-cased company, city or contact; one field suffices. */
  function SearchFournisseurs(s: Store, keyword: string): (r: seq<Fournisseur>)
    ensures Wf(s) ==> forall x :: x in r <==> x in s.rows.Values && KeywordOccurs(keyword, x.details)
  {
    FindWhere(s, KeywordIgnoreCase(keyword))
  }

  /** Some row matches `c` exactly when the filtered list is not empty. */
  lemma FindWhereNonEmpty(s: Store, c: Criterion)
    requires Wf(s)
    ensures |FindWhere(s, c)| > 0 <==> exists k :: k in s.rows && Matches(c, s.rows[k])
  {
    var hits := FindWhere(s, c);
    if |hits| > 0 {
      assert hits[0] in hits;
      assert hits[0] in s.rows.Values;
    }
    if exists k :: k in s.rows && Matches(c, s.rows[k]) {
      var k :| k in s.rows && Matches(c, s.rows[k]);
      assert s.rows[k] in hits;
    }
  }

  /** `existsByEmail`: some stored row has exactly this email. */
  function ExistsByEmail(s: Store, e: string): (r: bool)
    ensures Wf(s) ==> (r <==> exists k :: k in s.rows && s.rows[k].details.email == e)
  {
    if Wf(s) then FindWhereNonEmpty(s, EmailIs(e)); |FindWhere(s, EmailIs(e))| > 0
    else |FindWhere(s, EmailIs(e))| > 0
  }

  /** `existsByIce`: some stored row has exactly this ICE. */
  function ExistsByIce(s: Store, i: string): (r: bool)
    ensures Wf(s) ==> (r <==> exists k :: k in s.rows && s.rows[k].details.ice == i)
  {
    if Wf(s) then FindWhereNonEmpty(s, IceIs(i)); |FindWhere(s, IceIs(i))| > 0
    else |FindWhere(s, IceIs(i))| > 0
  }

  /** A single-result derived query (`Optional<Fournisseur>`): no match is an
      empty answer, one match is that row, and more than one is the framework's
      "query did not return a unique result" failure. */
  function FindUnique(s: Store, c: Criterion): (r: Result<Option<Fournisseur>, Error>)
    ensures Wf(s) ==> (r == Success(None) <==> forall k :: k in s.rows ==> !Matches(c, s.rows[k]))
    ensures Wf(s) && r.Success? && r.value.Some? ==>
      r.value.value in s.rows.Values && Matches(c, r.value.value)
    ensures Wf(s) ==> (r.Failure? <==>
      exists j, k :: j in s.rows && k in s.rows && j != k && Matches(c, s.rows[j]) && Matches(c, s.rows[k]))
  {
    var hits := FindWhere(s, c);
    var r := if |hits| == 0 then Success(None)
             else if |hits| == 1 then Success(Some(hits[0]))
             else Failure(Internal("query did not return a unique result"));
    if Wf(s) then
      FindWhereNonEmpty(s, c);
      FindWhereSeveral(s, c);
      assert |hits| == 1 ==> hits[0] in hits;
      r
    else r
  }

  lemma FindWhereSeveral(s: Store, c: Criterion)
    requires Wf(s)
    ensures |FindWhere(s, c)| >= 2 <==>
      exists j, k :: j in s.rows && k in s.rows && j != k && Matches(c, s.rows[j]) && Matches(c, s.rows[k])
  {
    var keys := set k | k in s.rows && Matches(c, s.rows[k]);
    FindWhereCount(s, c);
    TwoElements(keys);
    if exists j, k :: j in keys && k in keys && j != k {
      var j, k :| j in keys && k in keys && j != k;
      assert j in s.rows && k in s.rows && Matches(c, s.rows[j]) && Matches(c, s.rows[k]);
    }
    if exists j, k :: j in s.rows && k in s.rows && j != k && Matches(c, s.rows[j]) && Matches(c, s.rows[k]) {
      var j, k :| j in s.rows && k in s.rows && j != k && Matches(c, s.rows[j]) && Matches(c, s.rows[k]);
      assert j in keys && k in keys;
    }
  }

  ghost function Pick(a: set<int>): (r: int)
    requires |a| > 0
    ensures r in a
  {
    Inhabited(a);
    var y :| y in a; y
  }

  lemma Inhabited(a: set<int>)
    requires |a| > 0
    ensures exists y :: y in a
  {
    if forall y :: y !in a { assert false; }
  }

  /** A set has at least two elements exactly when it has two distinct members. */
  lemma TwoElements(a: set<int>)
    ensures |a| >= 2 <==> exists j, k :: j in a && k in a && j != k
  {
    if |a| >= 2 {
      var j := Pick(a);
      var k := Pick(a - {j});
    }
    if exists j, k :: j in a && k in a && j != k {
      var j, k :| j in a && k in a && j != k;
      assert a == {j, k} + (a - {j, k});
    }
  }

  /** `findBySociete`: the company name is not a unique column, so two
      suppliers of the same name make this query fail. */
  function FindBySociete(s: Store, n: string): (r: Result<Option<Fournisseur>, Error>)
    ensures Wf(s) ==> (r == Success(None) <==> forall k :: k in s.rows ==> s.rows[k].details.societe != n)
    ensures Wf(s) && r.Success? && r.value.Some? ==>
      r.value.value in s.rows.Values && r.value.value.details.societe == n
    ensures Wf(s) ==> (r.Failure? <==>
      exists j, k :: j in s.rows && k in s.rows && j != k && s.rows[j].details.societe == n && s.rows[k].details.societe == n)
  {
    var c := SocieteIs(n);
    assert forall x :: Matches(c, x) <==> x.details.societe == n;
    FindUnique(s, c)
  }

  /** Two suppliers sharing a company name make `findBySociete` fail. */
  lemma FindBySocieteFailsOnSharedName(s: Store, n: string, j: int, k: int)
    requires Wf(s) && j in s.rows && k in s.rows && j != k
    requires s.rows[j].details.societe == n && s.rows[k].details.societe == n
    ensures FindBySociete(s, n).Failure?
  {
    assert Matches(SocieteIs(n), s.rows[j]) && Matches(SocieteIs(n), s.rows[k]);
  }

  /** `findByIce`. */
  function FindByIce(s: Store, i: string): (r: Result<Option<Fournisseur>, Error>)
    ensures Wf(s) ==> (r == Success(None) <==> forall k :: k in s.rows ==> s.rows[k].details.ice != i)
    ensures Wf(s) && r.Success? && r.value.Some? ==>
      r.value.value in s.rows.Values && r.value.value.details.ice == i
    ensures Wf(s) ==> (r.Failure? <==>
      exists j, k :: j in s.rows && k in s.rows && j != k && s.rows[j].details.ice == i && s.rows[k].details.ice == i)
  {
    var c := IceIs(i);
    assert forall x :: Matches(c, x) <==> x.details.ice == i;
    FindUnique(s, c)
  }

  /** With the ICE column unique, `findByIce` never fails, and it finds a row
      exactly when `existsByIce` holds. */
  lemma FindByIceUnderUniqueness(s: Store, i: string)
    requires Wf(s) && Unique(s)
    ensures FindByIce(s, i).Success?
    ensures FindByIce(s, i).value.Some? <==> ExistsByIce(s, i)
    ensures FindByIce(s, i).value.Some? ==> FindByIce(s, i).value.value.details.ice == i
  {
  }

  /** `findAllByOrderBySocieteAsc`: every row, company ascending. */
  function FindAllByOrderBySocieteAsc(s: Store): (r: seq<Fournisseur>)
    ensures Sorted(BySociete, r)
    ensures multiset(r) == multiset(FindAll(s))
  {
    Sort(BySociete, FindAll(s))
  }

  /** `findAllByOrderByVilleAscSocieteAsc`: every row, city then company ascending. */
  function FindAllByOrderByVilleAscSocieteAsc(s: Store): (r: seq<Fournisseur>)
    ensures Sorted(ByVilleThenSociete, r)
    ensures multiset(r) == multiset(FindAll(s))
  {
    Sort(ByVilleThenSociete, FindAll(s))
  }

  /** The JPQL `findFournisseursByVilleOrderedBySociete`: the city's rows, company ascending. */
  function FindFournisseursByVilleOrderedBySociete(s: Store, v: string): (r: seq<Fournisseur>)
    ensures Sorted(BySociete, r)
    ensures multiset(r) == multiset(FindByVille(s, v))
  {
    Sort(BySociete, FindByVille(s, v))
  }

  /** A sorted listing holds exactly the stored rows, each once. */
  lemma SortedListingsAreStore(s: Store, x: Fournisseur)
    requires Wf(s)
    ensures x in FindAllByOrderBySocieteAsc(s) <==> x in s.rows.Values
    ensures x in FindAllByOrderByVilleAscSocieteAsc(s) <==> x in s.rows.Values
    ensures |FindAllByOrderBySocieteAsc(s)| == |FindAllByOrderByVilleAscSocieteAsc(s)| == |s.rows|
  {
    var all := FindAll(s);
    var a := FindAllByOrderBySocieteAsc(s);
    var b := FindAllByOrderByVilleAscSocieteAsc(s);
    assert x in a <==> x in multiset(a);
    assert x in b <==> x in multiset(b);
    assert x in all <==> x in multiset(all);
    assert |a| == |multiset(a)| == |multiset(all)| == |all|;
    assert |b| == |multiset(b)| == |multiset(all)|;
  }

  // ----- Writes -----

  /** `save` of a new entity: the IDENTITY column supplies the key and the
      @PrePersist hook stamps both timestamps. */
  function Persist(s: Store, f: Fournisseur, t1: Time, t2: Time): (r: (Store, Fournisseur))
    ensures r.1.id == Some(s.nextId) && r.1.details == f.details
    ensures r.0.rows == s.rows[s.nextId := r.1] && r.0.nextId == s.nextId + 1
  {
    var stored := OnCreate(f.(id := Some(s.nextId)), t1, t2);
    (Store(s.rows[s.nextId := stored], s.nextId + 1), stored)
  }

  /** `save` of an entity that already has a key: its row is replaced. */
  function Merge(s: Store, f: Fournisseur): (r: Store)
    requires f.id.Some?
    ensures r.rows == s.rows[f.id.value := f] && r.nextId == s.nextId
  {
    s.(rows := s.rows[f.id.value := f])
  }

  /** `deleteById`: the row goes, the counter stays, so the key is never reused. */
  function DeleteById(s: Store, id: int): (r: Store)
    ensures r.rows.Keys == s.rows.Keys - {id} && r.nextId == s.nextId
    ensures forall k :: k in r.rows ==> r.rows[k] == s.rows[k]
  {
    s.(rows := s.rows - {id})
  }
}

=== FILE: results.dfy ===
/** Option and Result, the two shapes every repository and service answer takes:
    Java's Optional<T> and "a value or a thrown exception". */
module Results {

  datatype Option<+T> = None | Some(value: T)

  datatype Result<+T, +E> = Success(value: T) | Failure(error: E)
}

=== FILE: service.dfy ===
/** The supplier service: create, update and delete as transitions of the
    table that either succeed or raise, and the uniqueness of email and ICE
    that every successful transition keeps. The read-only service methods
    hand their argument to the repository query of the same meaning
    unchanged, so they are the repository functions themselves. */
module FournisseurService {
  import opened Results
  import opened FournisseurEntity
  import opened Exceptions
  import opened FournisseurRepository

  /** What a service call leaves behind: the table, and the value or the exception. */
  datatype Outcome<T> = Outcome(store: Store, result: Result<T, Error>)

  /** What holds of the table between requests. */
  predicate Invariant(s: Store) {
    Wf(s) && Unique(s)
  }

  /** `createFournisseur`: the email check, then the ICE check, then `save`. */
  function CreateFournisseur(s: Store, d: Details, t1: Time, t2: Time): (o: Outcome<Fournisseur>)
    ensures o.result.Failure? ==> o.store == s
    ensures o.result.Success? ==>
      && o.result.value.id == Some(s.nextId)
      && o.result.value.details == d
      && o.store.rows == s.rows[s.nextId := o.result.value]
      && o.store.nextId == s.nextId + 1
  {
    if ExistsByEmail(s, d.email) then Outcome(s, Failure(AlreadyExists(EmailKey)))
    else if ExistsByIce(s, d.ice) then Outcome(s, Failure(AlreadyExists(IceKey)))
    else
      var (s', f) := Persist(s, New(d), t1, t2);
      Outcome(s', Success(f))
  }

  /** A stored email is refused, whatever the ICE, and the table is untouched. */
  lemma CreateRejectsTakenEmail(s: Store, d: Details, t1: Time, t2: Time)
    requires Wf(s)
    requires exists k :: k in s.rows && s.rows[k].details.email == d.email
    ensures CreateFournisseur(s, d, t1, t2) == Outcome(s, Failure(AlreadyExists(EmailKey)))
  {
  }

  /** A fresh email with a stored ICE is refused on the ICE, and the table is untouched. */
  lemma CreateRejectsTakenIce(s: Store, d: Details, t1: Time, t2: Time)
    requires Wf(s)
    requires forall k :: k in s.rows ==> s.rows[k].details.email != d.email
    requires exists k :: k in s.rows && s.rows[k].details.ice == d.ice
    ensures CreateFournisseur(s, d, t1, t2) == Outcome(s, Failure(AlreadyExists(IceKey)))
  {
  }

  /** Adding a persisted row under the counter's key, with an email and an
      ICE no row holds, keeps the invariant. */
  lemma AddFreshRowKeepsInvariant(s: Store, f: Fournisseur)
    requires Invariant(s) && Persisted(s.nextId, f)
    requires forall k :: k in s.rows ==> s.rows[k].details.email != f.details.email && s.rows[k].details.ice != f.details.ice
    ensures Invariant(Store(s.rows[s.nextId := f], s.nextId + 1))
  {
    var s' := Store(s.rows[s.nextId := f], s.nextId + 1);
    forall k | k in s'.rows ensures 1 <= k < s'.nextId && Persisted(k, s'.rows[k]) {
      if k != s.nextId {
        assert k in s.rows;
      }
    }
  }

  /** With both values fresh, creation succeeds: exactly one row is added, under
      a key never used before, every other row is kept, and the table still
      satisfies the invariant. */
  lemma CreateAddsOneRow(s: Store, d: Details, t1: Time, t2: Time)
    requires Invariant(s) && t1 <= t2
    requires forall k :: k in s.rows ==> s.rows[k].details.email != d.email && s.rows[k].details.ice != d.ice
    ensures var o := CreateFournisseur(s, d, t1, t2);
      && o.result.Success?
      && s.nextId !in s.rows
      && o.store.rows.Keys == s.rows.Keys + {s.nextId}
      && |o.store.rows| == |s.rows| + 1
      && (forall k :: k in s.rows ==> o.store.rows[k] == s.rows[k])
      && o.result.value.createdAt == Some(t1) && o.result.value.updatedAt == Some(t2)
      && FindById(o.store, s.nextId) == Some(o.result.value)
      && Invariant(o.store)
  {
    assert !ExistsByEmail(s, d.email) && !ExistsByIce(s, d.ice);
    var o := CreateFournisseur(s, d, t1, t2);
    var f := o.result.value;
    assert s.nextId !in s.rows;
    assert o.store.rows.Keys == s.rows.Keys + {s.nextId};
    assert |o.store.rows.Keys| == |s.rows.Keys| + 1;
    assert o.store == Store(s.rows[s.nextId := f], s.nextId + 1);
    assert Persisted(s.nextId, f);
    AddFreshRowKeepsInvariant(s, f);
  }

  /** Whatever happens, creation keeps the invariant. */
  lemma CreatePreservesInvariant(s: Store, d: Details, t1: Time, t2: Time)
    requires Invariant(s) && t1 <= t2
    ensures Invariant(CreateFournisseur(s, d, t1, t2).store)
  {
    if CreateFournisseur(s, d, t1, t2).result.Success? {
      CreateAddsOneRow(s, d, t1, t2);
    }
  }

  /** `updateFournisseur`: find the row, check an email or ICE only when it
      changes, copy the seven business fields, and `save`. The @PreUpdate hook
      runs only when the flush finds the row changed. */
  function UpdateFournisseur(s: Store, id: int, d: Details, t: Time): (o: Outcome<Fournisseur>)
    ensures id !in s.rows ==> o == Outcome(s, Failure(NotFound(id)))
    ensures o.result.Failure? ==> o.store == s
    ensures o.result.Success? ==>
      && id in s.rows
      && o.store == s.(rows := s.rows[id := o.result.value])
      && o.result.value.details == d
      && o.result.value.id == Some(id)
      && o.result.value.createdAt == s.rows[id].createdAt
    ensures o.result.Success? && d != s.rows[id].details ==> o.result.value.updatedAt == Some(t)
  {
    if id !in s.rows then Outcome(s, Failure(NotFound(id)))
    else
      var existing := s.rows[id];
      if existing.details.email != d.email && ExistsByEmail(s, d.email) then
        Outcome(s, Failure(AlreadyExists(EmailKey)))
      else if existing.details.ice != d.ice && ExistsByIce(s, d.ice) then
        Outcome(s, Failure(AlreadyExists(IceKey)))
      else
        var changed := existing.(id := Some(id), details := d);
        var saved := if changed != existing then OnUpdate(changed, t) else changed;
        Outcome(Merge(s, saved), Success(saved))
  }

  /** Keeping one's own email and ICE is never a conflict, although both
      existence probes answer true for them. */
  lemma UpdateKeepingOwnKeysSucceeds(s: Store, id: int, d: Details, t: Time)
    requires Wf(s) && id in s.rows
    requires d.email == s.rows[id].details.email && d.ice == s.rows[id].details.ice
    ensures ExistsByEmail(s, d.email) && ExistsByIce(s, d.ice)
    ensures UpdateFournisseur(s, id, d, t).result.Success?
  {
  }

  /** With the table unique, an update conflicts exactly when another row
      holds the new email (checked first) or the new ICE. */
  lemma UpdateConflictIffHeldByOther(s: Store, id: int, d: Details, t: Time)
    requires Invariant(s) && id in s.rows
    ensures var r := UpdateFournisseur(s, id, d, t).result;
      && (r == Failure(AlreadyExists(EmailKey)) <==> HeldByOther(s, id, EmailKey, d.email))
      && (r == Failure(AlreadyExists(IceKey)) <==>
            !HeldByOther(s, id, EmailKey, d.email) && HeldByOther(s, id, IceKey, d.ice))
      && (r.Success? <==> !HeldByOther(s, id, EmailKey, d.email) && !HeldByOther(s, id, IceKey, d.ice))
  {
    HeldByOtherIffProbe(s, id, EmailKey, d.email);
    HeldByOtherIffProbe(s, id, IceKey, d.ice);
  }

  /** Under uniqueness, "the value changed and the probe finds it" is the same
      as "another row holds it". */
  lemma HeldByOtherIffProbe(s: Store, id: int, key: UniqueKey, value: string)
    requires Invariant(s) && id in s.rows
    ensures HeldByOther(s, id, key, value) <==>
      KeyValue(s.rows[id], key) != value && exists k :: k in s.rows && KeyValue(s.rows[k], key) == value
  {
    if HeldByOther(s, id, key, value) {
      var k :| k in s.rows && k != id && KeyValue(s.rows[k], key) == value;
      assert KeyValue(s.rows[id], key) != KeyValue(s.rows[k], key);
    }
    if KeyValue(s.rows[id], key) != value && exists k :: k in s.rows && KeyValue(s.rows[k], key) == value {
      var k :| k in s.rows && KeyValue(s.rows[k], key) == value;
      assert k != id;
    }
  }

  /** A successful update rewrites one row: id and creation time kept, the
      update time moved forward (for a clock not behind the row's last update)
      only when a field changed, every other row kept, and the invariant kept. */
  lemma UpdatePreservesInvariant(s: Store, id: int, d: Details, t: Time)
    requires Invariant(s)
    requires id in s.rows ==> s.rows[id].updatedAt.value <= t
    ensures var o := UpdateFournisseur(s, id, d, t);
      && Invariant(o.store)
      && o.store.rows.Keys == s.rows.Keys
      && (forall k :: k in s.rows && k != id ==> o.store.rows[k] == s.rows[k])
      && (o.result.Success? ==>
            && o.result.value.updatedAt == (if d != s.rows[id].details then Some(t) else s.rows[id].updatedAt)
            && o.result.value.updatedAt.value >= s.rows[id].updatedAt.value)
  {
    var o := UpdateFournisseur(s, id, d, t);
    if o.result.Success? {
      UpdateConflictIffHeldByOther(s, id, d, t);
      var s' := o.store;
      forall j, k | j in s'.rows && k in s'.rows && j != k
        ensures s'.rows[j].details.email != s'.rows[k].details.email
        ensures s'.rows[j].details.ice != s'.rows[k].details.ice
      {
        if j == id {
          assert !HeldByOther(s, id, EmailKey, d.email) && !HeldByOther(s, id, IceKey, d.ice);
          assert KeyValue(s.rows[k], EmailKey) != d.email && KeyValue(s.rows[k], IceKey) != d.ice;
        } else if k == id {
          assert KeyValue(s.rows[j], EmailKey) != d.email && KeyValue(s.rows[j], IceKey) != d.ice;
        }
      }
      assert Wf(s');
    }
  }

  /** Sending back the stored values changes nothing: the flush finds the
      row clean, so not even the update time moves. */
  lemma UpdateWithSameDetailsIsNoOp(s: Store, id: int, t: Time)
    requires Wf(s) && id in s.rows
    ensures UpdateFournisseur(s, id, s.rows[id].details, t) == Outcome(s, Success(s.rows[id]))
  {
    UpdateKeepingOwnKeysSucceeds(s, id, s.rows[id].details, t);
    assert s.rows[id := s.rows[id]] == s.rows;
  }

  /** Repeating an update, at any later time, leaves the table as the first one did. */
  lemma UpdateIsIdempotent(s: Store, id: int, d: Details, t: Time, t': Time)
    requires Invariant(s)
    requires id in s.rows ==> s.rows[id].updatedAt.value <= t
    ensures var s1 := UpdateFournisseur(s, id, d, t).store;
      UpdateFournisseur(s1, id, d, t').store == s1
  {
    var o := UpdateFournisseur(s, id, d, t);
    UpdatePreservesInvariant(s, id, d, t);
    if o.result.Success? {
      UpdateWithSameDetailsIsNoOp(o.store, id, t');
    }
  }

  /** `deleteFournisseur`: an absent id is NotFound; otherwise the row goes. */
  function DeleteFournisseur(s: Store, id: int): (o: Outcome<()>)
    ensures o.result.Failure? <==> id !in s.rows
    ensures o.result.Failure? ==> o == Outcome(s, Failure(NotFound(id)))
    ensures o.result.Success? ==> o.store.rows.Keys == s.rows.Keys - {id}
    ensures forall k :: k in o.store.rows ==> o.store.rows[k] == s.rows[k]
    ensures o.store.nextId == s.nextId
  {
    if id !in s.rows then Outcome(s, Failure(NotFound(id)))
    else Outcome(DeleteById(s, id), Success(()))
  }

  /** `getFournisseurById`: an empty answer, not an error, when absent. */
  function GetFournisseurById(s: Store, id: int): (r: Option<Fournisseur>)
    ensures r.Some? <==> id in s.rows
    ensures r.Some? ==> r.value == s.rows[id]
  {
    FindById(s, id)
  }

  /** After a delete the id is gone, one row fewer remains, and the invariant holds. */
  lemma DeleteThenGetIsEmpty(s: Store, id: int)
    requires Invariant(s)
    ensures var o := DeleteFournisseur(s, id);
      && GetFournisseurById(o.store, id) == None
      && Invariant(o.store)
      && (o.result.Success? ==> |o.store.rows| == |s.rows| - 1)
  {
    var o := DeleteFournisseur(s, id);
    if o.result.Success? {
      assert o.store.rows.Keys == s.rows.Keys - {id};
    }
  }

  // ----- Sequences of requests -----

  /** One mutating request, with the clock readings its hooks take. */
  datatype Command =
    | Create(details: Details, t1: Time, t2: Time)
    | Update(id: int, details: Details, t: Time)
    | Delete(id: int)

  function Apply(s: Store, c: Command): Store {
    match c
    case Create(d, t1, t2) => CreateFournisseur(s, d, t1, t2).store
    case Update(id, d, t) => UpdateFournisseur(s, id, d, t).store
    case Delete(id) => DeleteFournisseur(s, id).store
  }

  /** The clock does not run backwards between the two @PrePersist readings. */
  predicate CreateClockOk(t1: Time, t2: Time) {
    t1 <= t2
  }

  /** The @PreUpdate reading is not behind the last update of the row being updated. */
  predicate UpdateClockOk(s: Store, id: int, t: Time) {
    id in s.rows && s.rows[id].updatedAt.Some? ==> s.rows[id].updatedAt.value <= t
  }

  predicate ClockOk(s: Store, c: Command) {
    match c
    case Create(_, t1, t2) => CreateClockOk(t1, t2)
    case Update(id, _, t) => UpdateClockOk(s, id, t)
    case Delete(_) => true
  }

  function Run(s: Store, cs: seq<Command>): Store
    decreases |cs|
  {
    if |cs| == 0 then s else Run(Apply(s, cs[0]), cs[1..])
  }

  predicate TimelyRun(s: Store, cs: seq<Command>)
    decreases |cs|
  {
    |cs| == 0 || (ClockOk(s, cs[0]) && TimelyRun(Apply(s, cs[0]), cs[1..]))
  }

  lemma ApplyPreservesInvariant(s: Store, c: Command)
    requires Invariant(s) && ClockOk(s, c)
    ensures Invariant(Apply(s, c))
    ensures Apply(s, c).nextId >= s.nextId
    ensures forall k :: k in Apply(s, c).rows ==> k in s.rows || k == s.nextId
  {
    match c
    case Create(d, t1, t2) => CreatePreservesInvariant(s, d, t1, t2);
    case Update(id, d, t) => UpdatePreservesInvariant(s, id, d, t);
    case Delete(id) => DeleteThenGetIsEmpty(s, id);
  }

  /** A fresh database, with no rows and the IDENTITY counter at 1, satisfies the invariant. */
  lemma EmptyIsValid()
    ensures Invariant(Empty)
  {
  }

  /** Every table reachable from a fresh database by a timely sequence of
      requests satisfies the invariant. */
  lemma ReachableIsValid(cs: seq<Command>)
    requires TimelyRun(Empty, cs)
    ensures Invariant(Run(Empty, cs))
    ensures forall k :: k in Run(Empty, cs).rows ==> 1 <= k < Run(Empty, cs).nextId
  {
    EmptyIsValid();
    RunPreservesInvariant(Empty, cs);
  }

  /** Any sequence of requests keeps email and ICE unique and never hands out
      a key twice: every key present at the end was present at the start or
      is at least the counter's starting value. */
  lemma {:induction false} RunPreservesInvariant(s: Store, cs: seq<Command>)
    requires Invariant(s) && TimelyRun(s, cs)
    ensures Invariant(Run(s, cs))
    ensures Run(s, cs).nextId >= s.nextId
    ensures forall k :: k in Run(s, cs).rows ==> k in s.rows || k >= s.nextId
    decreases |cs|
  {
    if |cs| > 0 {
      ApplyPreservesInvariant(s, cs[0]);
      RunPreservesInvariant(Apply(s, cs[0]), cs[1..]);
    }
  }
}

=== FILE: strings.dfy ===
/** The string primitives the supplier core relies on: Java's trim() and
    blankness test, ASCII case folding, substring and suffix search,
    lexicographic order, and equalsIgnoreCase against a fixed literal. */
module Strings {

  /** The characters Java's String.trim() strips: everything at or below U+0020. */
  predicate IsTrimmable(c: char) {
    c <= ' '
  }

  function TrimStart(s: string): (r: string)
    ensures |r| <= |s| && r == s[|s| - |r|..]
    ensures forall i :: 0 <= i < |s| - |r| ==> IsTrimmable(s[i])
    ensures |r| > 0 ==> !IsTrimmable(r[0])
  {
    if |s| > 0 && IsTrimmable(s[0]) then TrimStart(s[1..]) else s
  }

  function TrimEnd(s: string): (r: string)
    ensures |r| <= |s| && r == s[..|r|]
    ensures forall i :: |r| <= i < |s| ==> IsTrimmable(s[i])
    ensures |r| > 0 ==> !IsTrimmable(r[|r| - 1])
  {
    if |s| > 0 && IsTrimmable(s[|s| - 1]) then TrimEnd(s[..|s| - 1]) else s
  }

  /** `r` is the slice of `s` starting at `i`, and every character of `s`
      outside it is at or below U+0020. */
  ghost predicate StripsTo(s: string, r: string, i: int) {
    && 0 <= i <= |s| - |r| && r == s[i..i + |r|]
    && (forall j :: 0 <= j < i ==> IsTrimmable(s[j]))
    && (forall j :: i + |r| <= j < |s| ==> IsTrimmable(s[j]))
  }

  /** Java's String.trim(): the slice left after stripping characters at or
      below U+0020 from both ends. */
  function Trim(s: string): (r: string)
    ensures exists i :: StripsTo(s, r, i)
    ensures |r| > 0 ==> !IsTrimmable(r[0]) && !IsTrimmable(r[|r| - 1])
  {
    var t := TrimStart(s);
    var r := TrimEnd(t);
    StripsBothEnds(s, t, r);
    r
  }

  /** Stripping a trimmable prefix (leaving `t`) and then a trimmable suffix of
      `t` (leaving `r`) strips `s` to `r`. */
  lemma StripsBothEnds(s: string, t: string, r: string)
    requires |t| <= |s| && t == s[|s| - |t|..]
    requires forall j :: 0 <= j < |s| - |t| ==> IsTrimmable(s[j])
    requires |r| <= |t| && r == t[..|r|]
    requires forall j :: |r| <= j < |t| ==> IsTrimmable(t[j])
    ensures StripsTo(s, r, |s| - |t|)
  {
    var i := |s| - |t|;
    forall j | i + |r| <= j < |s|
      ensures IsTrimmable(s[j])
    {
      assert s[j] == t[j - i];
    }
  }

  /** A string that is empty or starts and ends above U+0020 is its own trim. */
  lemma TrimKeepsUntrimmableEnds(s: string)
    requires |s| > 0 ==> !IsTrimmable(s[0]) && !IsTrimmable(s[|s| - 1])
    ensures Trim(s) == s
  {
  }

  /** Trimming twice is trimming once. */
  lemma TrimIdempotent(s: string)
    ensures Trim(Trim(s)) == Trim(s)
  {
    TrimKeepsUntrimmableEnds(Trim(s));
  }

  /** `s.trim().isEmpty()`, the test both @NotBlank and the controller use:
      no character above U+0020 survives. */
  predicate IsBlank(s: string)
    ensures IsBlank(s) <==> forall i :: 0 <= i < |s| ==> IsTrimmable(s[i])
  {
    var r := Trim(s);
    if |r| > 0 then assert !IsTrimmable(r[0]); false else true
  }

  /** ASCII digits, the `[0-9]` class of the entity's patterns. */
  predicate IsDigit(c: char) {
    '0' <= c <= '9'
  }

  predicate AllDigits(s: string) {
    forall i :: 0 <= i < |s| ==> IsDigit(s[i])
  }

  /** Lower-casing of the ASCII letters; every other character is kept. */
  function LowerChar(c: char): (r: char)
    ensures !('A' <= r <= 'Z')
    ensures 'a' <= c <= 'z' ==> r == c
  {
    if 'A' <= c <= 'Z' then (c as int + 32) as char else c
  }

  function UpperChar(c: char): char {
    if 'a' <= c <= 'z' then (c as int - 32) as char else c
  }

  function Lower(s: string): (r: string)
    ensures |r| == |s|
    ensures forall i :: 0 <= i < |s| ==> r[i] == LowerChar(s[i])
  {
    if |s| == 0 then [] else [LowerChar(s[0])] + Lower(s[1..])
  }

  /** `n` occurs in `h` starting at position `i`. */
  ghost predicate OccursAt(n: string, h: string, i: int) {
    0 <= i <= |h| - |n| && h[i..i + |n|] == n
  }

  /** `n` occurs in `h` at some position. */
  ghost predicate IsSubstring(n: string, h: string) {
    exists i :: OccursAt(n, h, i)
  }

  lemma SubstringStep(n: string, h: string)
    requires |n| <= |h| && !(n <= h)
    ensures IsSubstring(n, h) <==> IsSubstring(n, h[1..])
  {
    if IsSubstring(n, h) {
      var i :| OccursAt(n, h, i);
      assert i != 0;
      assert h[1..][i - 1..i - 1 + |n|] == h[i..i + |n|];
      assert OccursAt(n, h[1..], i - 1);
    }
    if IsSubstring(n, h[1..]) {
      var i :| OccursAt(n, h[1..], i);
      assert h[1..][i..i + |n|] == h[i + 1..i + 1 + |n|];
      assert OccursAt(n, h, i + 1);
    }
  }

  /** Substring search, `n` scanned against every suffix of `h` in turn. */
  function Contains(h: string, n: string): (r: bool)
    ensures r <==> IsSubstring(n, h)
    decreases |h|
  {
    if |n| > |h| then false
    else if n <= h then assert OccursAt(n, h, 0); true
    else SubstringStep(n, h); Contains(h[1..], n)
  }

  /** Case-insensitive containment. The JPQL search compares
      LOWER(..) LIKE LOWER('%k%'); Spring's derived ContainingIgnoreCase query
      compares UPPER(..) LIKE UPPER(..) instead. With the ASCII-only folding
      modelled here the two agree, so both are this test. */
  predicate ContainsIgnoreCase(h: string, n: string) {
    Contains(Lower(h), Lower(n))
  }

  /** `s` ends with `d` (SQL `LIKE '%d'`). */
  predicate EndsWith(s: string, d: string) {
    |d| <= |s| && s[|s| - |d|..] == d
  }

  lemma EndsWithIffSplit(s: string, d: string)
    ensures EndsWith(s, d) <==> exists p :: p + d == s
  {
    if EndsWith(s, d) {
      assert s[..|s| - |d|] + d == s;
    }
    if exists p :: p + d == s {
      var p :| p + d == s;
      assert s[|s| - |d|..] == d;
    }
  }

  /** Lexicographic order on character codes. */
  predicate StrLe(a: string, b: string)
    decreases |a|
  {
    if |a| == 0 then true
    else if |b| == 0 then false
    else if a[0] != b[0] then a[0] < b[0]
    else StrLe(a[1..], b[1..])
  }

  predicate StrLt(a: string, b: string) {
    StrLe(a, b) && a != b
  }

  lemma {:induction false} StrLeReflexive(a: string)
    ensures StrLe(a, a)
    decreases |a|
  {
    if |a| > 0 {
      StrLeReflexive(a[1..]);
    }
  }

  lemma {:induction false} StrLeTotal(a: string, b: string)
    ensures StrLe(a, b) || StrLe(b, a)
    decreases |a|
  {
    if |a| > 0 && |b| > 0 && a[0] == b[0] {
      StrLeTotal(a[1..], b[1..]);
    }
  }

  lemma {:induction false} StrLeAntisymmetric(a: string, b: string)
    requires StrLe(a, b) && StrLe(b, a)
    ensures a == b
    decreases |a|
  {
    if |a| > 0 {
      StrLeAntisymmetric(a[1..], b[1..]);
      assert a == [a[0]] + a[1..] && b == [b[0]] + b[1..];
    }
  }

  lemma {:induction false} StrLeTransitive(a: string, b: string, c: string)
    requires StrLe(a, b) && StrLe(b, c)
    ensures StrLe(a, c)
    decreases |a|
  {
    if |a| > 0 && a[0] == b[0] && b[0] == c[0] {
      StrLeTransitive(a[1..], b[1..], c[1..]);
    }
  }

  /** Whether Java's `equalsIgnoreCase` matches character `c` against the
      lower-case ASCII letter `l`. It compares `c == l`, then the upper-case
      forms, then the lower case of the upper-case forms; besides the two ASCII
      cases this admits U+0131 and U+0130 for `i`, U+017F for `s` and the
      Kelvin sign U+212A for `k`. */
  predicate CharMatchesIgnoreCase(c: char, l: char)
    requires 'a' <= l <= 'z'
  {
    || c == l
    || c == UpperChar(l)
    || (l == 'i' && (c == '\U{0131}' || c == '\U{0130}'))
    || (l == 's' && c == '\U{017F}')
    || (l == 'k' && c == '\U{212A}')
  }

  predicate IsLowerAsciiWord(lit: string) {
    forall i :: 0 <= i < |lit| ==> 'a' <= lit[i] <= 'z'
  }

  predicate IsAscii(s: string) {
    forall i :: 0 <= i < |s| ==> s[i] < '\U{80}'
  }

  /** `lit.equalsIgnoreCase(s)` for a lower-case ASCII literal; a null `s` is
      false. Only strings of the literal's length match; every ASCII casing
      of the literal matches; and an ASCII string matches exactly when it
      lower-cases to the literal. */
  predicate EqualsIgnoreCase(s: string, lit: string)
    requires IsLowerAsciiWord(lit)
    ensures EqualsIgnoreCase(s, lit) ==> |s| == |lit|
    ensures Lower(s) == lit ==> EqualsIgnoreCase(s, lit)
    ensures IsAscii(s) && EqualsIgnoreCase(s, lit) ==> Lower(s) == lit
  {
    FoldingPerCharacter(s, lit);
    |s| == |lit| && forall i :: 0 <= i < |s| ==> CharMatchesIgnoreCase(s[i], lit[i])
  }

  /** For one character: lower-casing to the letter is a match, and for an
      ASCII character a match lower-cases to the letter. */
  lemma CharFolding(c: char, l: char)
    requires 'a' <= l <= 'z'
    ensures LowerChar(c) == l ==> CharMatchesIgnoreCase(c, l)
    ensures c < '\U{80}' && CharMatchesIgnoreCase(c, l) ==> LowerChar(c) == l
  {
  }

  /** The character facts lifted to the whole string. */
  lemma FoldingPerCharacter(s: string, lit: string)
    requires IsLowerAsciiWord(lit)
    ensures Lower(s) == lit ==>
      |s| == |lit| && forall i :: 0 <= i < |s| ==> CharMatchesIgnoreCase(s[i], lit[i])
    ensures IsAscii(s) && |s| == |lit| && (forall i :: 0 <= i < |s| ==> CharMatchesIgnoreCase(s[i], lit[i])) ==>
      Lower(s) == lit
  {
    if |s| == |lit| {
      forall i | 0 <= i < |s|
        ensures LowerChar(s[i]) == lit[i] ==> CharMatchesIgnoreCase(s[i], lit[i])
        ensures s[i] < '\U{80}' && CharMatchesIgnoreCase(s[i], lit[i]) ==> Lower(s)[i] == lit[i]
      {
        CharFolding(s[i], lit[i]);
      }
    }
  }

  /** Beyond ASCII, Java folds more than `LOWER` does: "v\U{0130}lle" (capital
      I with dot above) equals "ville" ignoring case, although it does not
      lower-case to it. */
  lemma EqualsIgnoreCaseBeyondAscii()
    ensures EqualsIgnoreCase("v\U{0130}lle", "ville")
    ensures Lower("v\U{0130}lle") != "ville"
  {
    assert Lower("v\U{0130}lle")[1] == '\U{0130}';
  }
}
